=== FILE: README.md ===
# wexplore: the Wikipedia edit stream parser and the InfluxDB loader arguments

This project models three pieces of wexplore in Dafny and proves properties of
them.

- **WikiStream** (`wikistream.dfy`) models the Wikipedia IRC streamer.
  - `WikiStreamer.parse_message` turns one edit notification line into a record. The record holds the page, flag, url, user, byte delta, comment, whether the edit is anonymous, and the page's namespace.
  - `WikiStreamer.handle_event` counts each recognised message and hands it to the message handler.
  - The message pattern `RE_MESSAGE` is a parameter (`Matcher`) that returns the six captured groups or nothing.
  - The channel table `channels.WIKIPEDIAS` is a parameter (`Registry`).
  - The byte delta (`[+-]\d+`), the IPv4 and IPv6 tests and the namespace lookup are modelled exactly.
- **TimeDelta** (`timedelta.dfy`) models `parse_timedelta` of the loader script. It is an anchored, case-insensitive pattern of seven optional groups `<digits> <unit>`, from weeks down to microseconds.
  - The pattern's backtracking is written out as a deterministic reader that keeps only the choices that can lead to a match.
  - A duration is a whole number of microseconds.
  - `ParseTimedelta` behaves as the code does. `ParseTimedeltaIntended` is the corrected reading (see Findings).
- **InfluxLocation** (`location.dfy`) models `influx_args`. It matches a location `[[user/password@]host[:port]][/database]` and builds the client's keyword arguments.

`text.dfy` holds the character classes, decimal numerals and split/join shared by the three. `wrappers.dfy` holds `Option` and `Result`. An exception in the source is a `Failure` here:
- `KeyError` for an unknown channel;
- `ValueError` for a malformed duration or location;
- `OverflowError` for a duration of 999999999 days plus one day or more, that is, whose days part exceeds 999999999.

## Model

| member | source | states |
|---|---|---|
| WikiStream.ParseMessage | wikipedia-stream/src/main/python/wikipedia/wikistream.py:55-91 | A line the message pattern rejects gives no record. A matching line on a channel missing from the channel table raises. Otherwise the record carries the page, flag, url, user and comment groups, the channel's short name, the delta read from the fifth group, the anonymity of the user and the namespace of the page. |
| WikiStream.SearchSigned | wikipedia-stream/src/main/python/wikipedia/wikistream.py:61 | The search for `[+-]\d+` finds nothing exactly when no sign is followed by a digit. Otherwise it finds the leftmost such position. |
| WikiStream.DeltaOf | wikipedia-stream/src/main/python/wikipedia/wikistream.py:60-64 | The delta is None exactly when the text has no sign followed by a digit. Otherwise it is the signed value of the whole digit run after the first such sign. |
| WikiStream.DeltaOfSignedNumeral | wikipedia-stream/src/main/python/wikipedia/wikistream.py:61 | A text with no sign before `+n` or `-n` that is followed by a non-digit has delta n or -n. |
| WikiStream.DeltaExamplePositive | wikipedia-stream/src/main/python/wikipedia/wikistream.py:61 | `"(+123) "` has delta 123. |
| WikiStream.DeltaExampleNegative | wikipedia-stream/src/main/python/wikipedia/wikistream.py:61 | `"(-7)"` has delta -7. |
| WikiStream.DeltaExampleUnsigned | wikipedia-stream/src/main/python/wikipedia/wikistream.py:60-64 | An unsigned number `"123"` has no delta: the lookup fails and the delta becomes None. |
| WikiStream.MatchesRunsIffSplitsInto | wikipedia-stream/src/main/python/wikipedia/wikistream.py:68-69 | Reading the address patterns left to right agrees with splitting the user on the separator: n runs of the character class joined by the separator, non-empty where the pattern uses `+`. |
| WikiStream.AnonymousIffAddressShape | wikipedia-stream/src/main/python/wikipedia/wikistream.py:67-70 | An edit is anonymous exactly when its user splits on dots into four non-empty digit runs, or on colons into eight (possibly empty) hex runs. |
| WikiStream.DottedQuadIsAnonymous | wikipedia-stream/src/main/python/wikipedia/wikistream.py:68 | Four non-empty digit runs joined by dots make an anonymous user. No range check applies to the numbers. |
| WikiStream.HexGroupsAreAnonymous | wikipedia-stream/src/main/python/wikipedia/wikistream.py:69 | Eight hex runs joined by colons, empty ones included, make an anonymous user. |
| WikiStream.PlainNameIsNotAnonymous | wikipedia-stream/src/main/python/wikipedia/wikistream.py:67-70 | A user with neither a dot nor a colon is not anonymous. |
| WikiStream.AnonymityExamples | wikipedia-stream/src/main/python/wikipedia/wikistream.py:67-70 | `192.168.0.1` and `999.999.999.999` are anonymous. `Example_User` is not. |
| WikiStream.Namespace | wikipedia-stream/src/main/python/wikipedia/wikistream.py:75-79 | A page without a colon, or with a space right after its first colon, is an article. Otherwise the namespace is the table's translation of the text before the first colon, or that text itself when the table has no entry. |
| WikiStream.NamespaceOfPrefixed | wikipedia-stream/src/main/python/wikipedia/wikistream.py:76-79 | `prefix:rest`, with rest not starting with a space, has the namespace prefix, translated when the table knows it. |
| WikiStream.NamespaceSpaceAfterColon | wikipedia-stream/src/main/python/wikipedia/wikistream.py:78 | `prefix: rest` is an article, whatever the prefix. |
| WikiStream.NamespaceExampleUntranslated | wikipedia-stream/src/main/python/wikipedia/wikistream.py:79 | `User talk:Alice` with an empty table is in namespace `User talk`. |
| WikiStream.NamespaceExampleTranslated | wikipedia-stream/src/main/python/wikipedia/wikistream.py:79 | `Talk:Bob` with `Talk` translated is in the translated namespace. |
| WikiStream.HandleEvent | wikipedia-stream/src/main/python/wikipedia/wikistream.py:93-98 | An event raises exactly when it has arguments and parsing its first argument raises. The counter goes up by one exactly when a record was parsed, and then exactly that record is handed on. Otherwise nothing changes. |
| WikiStream.RunFailsIffUnknownChannel | wikipedia-stream/src/main/python/wikipedia/wikistream.py:93-98 | A sequence of events is handled without raising exactly when no event's parse raises. |
| WikiStream.RunConcat | wikipedia-stream/src/main/python/wikipedia/wikistream.py:93-98 | Handling two batches of events one after the other is handling them together. |
| WikiStream.RunDeliversRecognized | wikipedia-stream/src/main/python/wikipedia/wikistream.py:93-98 | When no parse raises, the counter grows by the number of recognised records. The handler receives exactly those records, in arrival order. |
| WikiStream.CounterCountsDeliveries | wikipedia-stream/src/main/python/wikipedia/wikistream.py:31 | A streamer starting from zero whose events all parse ends with `num_messages` equal to the number of records delivered, and those are the recognised records. |
| TimeDelta.FromCaptures | influxdb/scripts/wiki_loader.py:83-91 | No match is a `ValueError`. Otherwise the result is the overflow error exactly when the sum of multiplier times unit over the captures reaches 999999999 days plus one day, and is that sum when it is a duration. |
| TimeDelta.ParseTimedelta | influxdb/scripts/wiki_loader.py:46-92 | `parse_timedelta` as the code behaves. Any duration it returns is below the `timedelta` limit. Which texts it accepts and what it returns for them is stated by `AcceptedIsWritten`, `ParseFormatted` and the rejection lemmas. |
| TimeDelta.ParseTimedeltaIntended | influxdb/scripts/wiki_loader.py:46-92 | `parse_timedelta` with the microseconds group taking its whole digit run. Any duration it returns is below the `timedelta` limit. Which texts it accepts and what it returns for them is stated by `AcceptedIsWritten`, `ParseFormattedIntended` and the rejection lemmas. |
| TimeDelta.MatchedIsWritten | influxdb/scripts/wiki_loader.py:48-59 | Whatever the pattern matches from a group on is groups of that unit or smaller, in decreasing unit order, each unit at most once. Each group is a digit run (leading zeros allowed), white space, a spelling of its unit in any case (or nothing, for milliseconds and microseconds) and white space. The captures are the values of those digit runs at their units. |
| TimeDelta.CapturesTotal | influxdb/scripts/wiki_loader.py:86-91 | The duration the captures denote is the sum over the written groups of each multiplier's value times its unit. |
| TimeDelta.AcceptedIsWritten | influxdb/scripts/wiki_loader.py:62-92 | Every text either parser accepts is groups written in decreasing unit order, as the docstring (lines 65-66) describes. The result is the sum over those groups of multiplier times unit, or the overflow error from 999999999 days plus one day on. |
| TimeDelta.LaterNotPrefix | influxdb/scripts/wiki_loader.py:49-55 | No spelling of a smaller unit is a prefix of a spelling of a larger one, so in particular no two units share a spelling. |
| TimeDelta.SpellingsInOrder | influxdb/scripts/wiki_loader.py:49-55 | Within a unit's alternation, no spelling is a prefix of one tried after it. |
| TimeDelta.GroupAtSpelled | influxdb/scripts/wiki_loader.py:49-55 | A group written as its multiplier, any white space, any spelling of its unit and any white space is read back whole by its own group, up to the next group. |
| TimeDelta.MatchFormatted | influxdb/scripts/wiki_loader.py:46-59 | Every duration written in decreasing unit order, each multiplier in decimal without leading zeros and each present unit in any of its spellings and with any white space, is matched. The captures are the groups written, except that the code as written hands all but the last digit of a microseconds multiplier to an absent milliseconds group. |
| TimeDelta.ParseFormatted | influxdb/scripts/wiki_loader.py:62-92 | `parse_timedelta` of such a text is the sum of multiplier times unit over the captures the pattern produces, or the overflow error from 999999999 days plus one day on. |
| TimeDelta.ParseFormattedIntended | influxdb/scripts/wiki_loader.py:62-92 | The corrected parser returns the sum of multiplier times unit over the groups written, or the overflow error. This is the round trip from a duration's written form back to its value. |
| TimeDelta.GiveBackTotal | influxdb/scripts/wiki_loader.py:54-55 | When the give-back happens, the code as written reads 990 microseconds more for every ten microseconds of the multiplier. |
| TimeDelta.ReadingsDifferIffGiveBack | influxdb/scripts/wiki_loader.py:54-55 | For a duration written with multipliers without leading zeros, the two readings differ, both in captures and in total, exactly when the milliseconds group is absent and the microseconds multiplier is 10 or more. |
| TimeDelta.GiveBackExample | influxdb/scripts/wiki_loader.py:54-55 | `"12us"` is 1002 microseconds as written and 12 in the corrected parser. |
| TimeDelta.DocstringExample | influxdb/scripts/wiki_loader.py:74-75 | `"1w2h3s4us"` is 7 days, 2 hours, 3 seconds and 4 microseconds (612003000004 microseconds) in both parsers, as the docstring's example says. |
| TimeDelta.EmptyIsZero | influxdb/scripts/wiki_loader.py:46-59 | The empty text is the zero duration: every group is optional. |
| TimeDelta.NonDigitStartRejected | influxdb/scripts/wiki_loader.py:83-85 | A non-empty text that does not start with a digit is a `ValueError`. This includes leading white space. |
| TimeDelta.OutOfOrderRejected | influxdb/scripts/wiki_loader.py:49-56 | After any well-formed groups of larger units, a group followed by a group of a larger or the same unit is a `ValueError`, whatever comes after, as long as it does not continue the second group's unit word (`"1s2ms"` is 1 s + 2 ms). Units must come in decreasing order, each at most once. |
| TimeDelta.UnknownUnitRejected | influxdb/scripts/wiki_loader.py:49-56 | After any well-formed groups, a number, white space and a letter that begins no unit spelling is a `ValueError`, whatever comes after. |
| TimeDelta.CaseInsensitive | influxdb/scripts/wiki_loader.py:58 | Both parsers give the same result for a text and its ASCII lower-case form. |
| InfluxLocation.MatchLocation | influxdb/scripts/wiki_loader.py:112 | Whatever the pattern matches is a well-formed location whose text is the input. |
| InfluxLocation.MatchRendered | influxdb/scripts/wiki_loader.py:112 | A well-formed location is read back as the groups it was written from. The exception is a location with no credentials, a host, and an `@` in the database, where the credentials alternative may claim that `@`. |
| InfluxLocation.MatchesEveryLocation | influxdb/scripts/wiki_loader.py:112-114 | Every well-formed location is accepted. |
| InfluxLocation.AcceptsExactlyLocations | influxdb/scripts/wiki_loader.py:112-114 | The pattern accepts a text exactly when it is the text of some well-formed location. |
| InfluxLocation.InfluxArgs | influxdb/scripts/wiki_loader.py:111-124 | A text the pattern rejects is a `ValueError` naming the text. Otherwise the dictionary has only the five keywords, and username and password come together and only with a host. A port appears only with a host and is an integer. Every other value is non-empty text. |
| InfluxLocation.ArgsOfShape | influxdb/scripts/wiki_loader.py:115-124 | The dictionary built from well-formed groups has that shape. |
| InfluxLocation.ReadBack | influxdb/scripts/wiki_loader.py:115-124 | An unambiguous location gives the keyword arguments of its groups. |
| InfluxLocation.ArgsRoundTrip | influxdb/scripts/wiki_loader.py:111-124 | Keyword arguments of the dictionary shape, with word characters in the credentials and the host, no line break in the database, and no `@` in a database that follows a host without credentials, written out as a location and parsed, come back unchanged. |
| InfluxLocation.PortWithoutCredentials | influxdb/scripts/wiki_loader.py:112 | A location with a host and a port but no credentials is read back as its groups, whatever its database holds: the colon stops the credentials alternative. |
| InfluxLocation.ProducedArgsRoundTrip | influxdb/scripts/wiki_loader.py:111-124 | The keyword arguments of any accepted location, written out as a location again and parsed, come back unchanged. This includes arguments with an `@` in the database, such as those of `h/x.z@y` and `u/p@h:abc`. |
| InfluxLocation.HostWithoutPort | influxdb/scripts/wiki_loader.py:112 | A host followed by a colon and no digit leaves the port empty and the colon unread. |
| InfluxLocation.HostThenStrayColon | influxdb/scripts/wiki_loader.py:112-114 | A host followed by a colon and no digit, with no `@` anywhere, is a `ValueError`. |
| InfluxLocation.CredentialsFallBackToDatabase | influxdb/scripts/wiki_loader.py:112 | When the credentials' host is followed by a stray colon, the username is read as the host and everything after the first slash as the database. |
| InfluxLocation.CredentialsFallBackExample | influxdb/scripts/wiki_loader.py:112-124 | `u/p@h:abc` gives host `u` and database `p@h:abc`. |
| InfluxLocation.EmptyLocation | influxdb/scripts/wiki_loader.py:115-124 | The empty location gives no keyword arguments. |
| InfluxLocation.FullLocation | influxdb/scripts/wiki_loader.py:111-124 | `u/p@h:8086/db` gives all five keywords, with the port 8086. |
| InfluxLocation.PortLeadingZeros | influxdb/scripts/wiki_loader.py:120-121 | The port is converted with `int`, so `h:0080` has port 80. |

## Left out

- The IRC transport is left out. This covers connecting, joining channels, `process_for` and `process_until` (wikistream.py:24-53), `close` and the script entry point. These are I/O and clock-driven loops. `Run` stands for the sequence of `pubmsg` events they dispatch.
- `RE_MESSAGE` (wikistream.py:19-20) is a parameter and is not modelled character by character. Its six groups are what the parser consumes.
- `channels.WIKIPEDIAS` is not part of this model. The channel table is a parameter.
- An unknown channel follows the code: the `KeyError` from the table lookup propagates. No default wiki is assumed.
- The `logging.warning` at wikistream.py:63 is a side effect with no bearing on the result. The delta simply becomes None.
- `connect_influx`, `influx_streamer` and `main` of the loader script are left out. They are database client calls and argument parsing.
- Character classes are ASCII: `\d` is 0-9, `\w` is letters, digits and `_`, and `\s` is space, tab, newline, vertical tab, form feed and carriage return. Python's `str` patterns also match Unicode digits, letters and spaces. `\s` in particular also covers `\x1c`-`\x1f`, `\x85` and `\xa0`.
- Case-insensitive matching is ASCII only. Python's `re.IGNORECASE` also folds `ſ` to `s` and `ı` to `i`, so Python reads `"5ſ"` as five seconds, and the model refuses it.
- `$` is the end of the text. Python's `$` also matches before a final newline, so Python reads `"\n"` as the zero duration and accepts `"host\n"` and `"h/db\n"` as locations. The model refuses all three.
- Python's limit of 4300 digits on `int(str)` is not modelled. Past it, a delta becomes None and a port or duration multiplier raises `ValueError`. Here numbers of any length are read.
- TimeDelta.ParseTimedelta: returns the duration as a whole number of microseconds rather than a `datetime.timedelta` object. Only the day limit of `timedelta` is kept: a days part above 999999999 is the overflow error.
- TimeDelta.MatchFormatted: covers the texts written with a unit after every multiplier, each multiplier in decimal without leading zeros. The milliseconds and microseconds groups also accept a bare number, and every group accepts leading zeros (`"05s"`). Those texts are covered by `AcceptedIsWritten` in the direction from accepted text to written groups, and by the definitions, but not by a round-trip lemma.
- TimeDelta.ReadingsDifferIffGiveBack: is stated over capture sequences, that is, over texts written without leading zeros. A leading zero on a microseconds multiplier with no milliseconds group also triggers the give-back: `"05us"` is read as 0 milliseconds and 5 microseconds as written, and as 5 microseconds alone by the corrected parser. The captures then differ but the totals agree. That case is not covered by a lemma.
- TimeDelta.AcceptedIsWritten: states the direction from accepted text to written groups for every text. The opposite direction, that every text written in decreasing unit order is accepted, is proved only for the texts `MatchFormatted` covers.

## Findings

| source | as written | input that shows it | evidently intended | confidence | as-written member | corrected member |
|---|---|---|---|---|---|---|
| influxdb/scripts/wiki_loader.py:54-55 | The milliseconds group's unit is optional. With no milliseconds written, that group may stop one digit before the end of a microseconds multiplier and hand only the last digit to the microseconds group. The engine tries this before skipping the group. | `"12us"` (also `"12microseconds"`) gives 1 millisecond and 2 microseconds, 1002 microseconds in all. | `"12us"` is 12 microseconds, as the docstring's unit list (lines 72-73) says. | not executed | TimeDelta.GiveBackExample | TimeDelta.ParseFormattedIntended |

=== FILE: location.dfy ===
/** The InfluxDB location argument of the loader script (`influx_args` in
    influxdb/scripts/wiki_loader.py): a string of the shape
    `[[username/password@]host[:port]][/database]` turned into the keyword
    arguments of the database client. */
module InfluxLocation {
  import opened Wrappers
  import opened Text

  /** The five capture groups of the location pattern: username, password,
      host, port digits and database. */
  datatype Groups = Groups(
    username: Option<string>,
    password: Option<string>,
    host: Option<string>,
    port: Option<string>,
    database: Option<string>)

  /** A keyword-argument value: the port is converted to an integer, every
      other argument stays text. */
  datatype Arg = Str(str: string) | Num(num: nat)

  type Args = map<string, Arg>

  /** A location the pattern does not match raises a `ValueError`. */
  datatype LocationError = BadLocation(location: string)

  predicate IsLineChar(c: char) { c != '\n' }

  predicate IsWord(s: string) { |s| > 0 && All(s, IsWordChar) }

  predicate IsNumeral(s: string) { |s| > 0 && All(s, IsDigit) }

  /** The database group `(.+)`: any non-empty text without a line break. */
  predicate IsDatabase(s: string) { |s| > 0 && All(s, IsLineChar) }

  // ---------------------------------------------------------------------------
  // The location grammar, written forwards
  // ---------------------------------------------------------------------------

  function CredentialsText(username: Option<string>, password: Option<string>): string {
    if username.Some? && password.Some? then username.value + ("/" + (password.value + "@")) else ""
  }

  function PrefixText(o: Option<string>, lead: string): string {
    if o.Some? then lead + o.value else ""
  }

  /** The text of everything after the credentials: host, port and database. */
  function AddressText(g: Groups): string {
    PrefixText(g.host, "") + (PrefixText(g.port, ":") + PrefixText(g.database, "/"))
  }

  /** The text a set of groups stands for. */
  function Render(g: Groups): string {
    CredentialsText(g.username, g.password) + AddressText(g)
  }

  /** The groups of a location: credentials come in pairs and only with a
      host, a port only with a host, and every present group has the shape of
      its sub-pattern. */
  predicate WellFormed(g: Groups) {
    && (g.username.Some? <==> g.password.Some?)
    && (g.username.Some? ==> g.host.Some?)
    && (g.port.Some? ==> g.host.Some?)
    && (g.username.Some? ==> IsWord(g.username.value))
    && (g.password.Some? ==> IsWord(g.password.value))
    && (g.host.Some? ==> IsWord(g.host.value))
    && (g.port.Some? ==> IsNumeral(g.port.value))
    && (g.database.Some? ==> IsDatabase(g.database.value))
  }

  // ---------------------------------------------------------------------------
  // The pattern `^(?:(?:(\w+)/(\w+)@)?(\w+)(?::(\d+))?)?(?:/(.+))?$`
  // ---------------------------------------------------------------------------

  /** `(\w+)` followed by the separator `sep`.  The separator is not a word
      character, so only the whole word run at the front can be followed by
      it: shorter runs, which backtracking would try, end before a word
      character. */
  function WordThen(t: string, sep: char): (r: Option<(string, string)>)
    requires !IsWordChar(sep)
    ensures r.Some? ==> IsWord(r.value.0) && t == r.value.0 + ([sep] + r.value.1)
  {
    var n := RunLength(t, 0, IsWordChar);
    if 0 < n < |t| && t[n] == sep then
      assert t == t[..n] + ([t[n]] + t[n + 1..]);
      Some((t[..n], t[n + 1..]))
    else
      None
  }

  /** The optional group `(\w+)/(\w+)@`: username, password and the text
      after the `@`. */
  function Credentials(t: string): (r: Option<(string, string, string)>)
    ensures r.Some? ==>
      IsWord(r.value.0) && IsWord(r.value.1)
      && t == CredentialsText(Some(r.value.0), Some(r.value.1)) + r.value.2
  {
    match WordThen(t, '/')
    case None => None
    case Some((u, afterSlash)) =>
      match WordThen(afterSlash, '@')
      case None => None
      case Some((p, rest)) =>
        JoinCredentials(u, p, rest);
        Some((u, p, rest))
  }

  lemma JoinCredentials(u: string, p: string, rest: string)
    ensures u + ("/" + (p + ("@" + rest))) == CredentialsText(Some(u), Some(p)) + rest
  {
    calc {
      u + ("/" + (p + ("@" + rest)));
      u + (("/" + (p + "@")) + rest);
      (u + ("/" + (p + "@"))) + rest;
    }
  }

  /** `(\w+)(?::(\d+))?`: the host, the port digits if a colon and at least
      one digit follow it, and the text after them.  As with `WordThen`, a
      shorter host or a shorter port would leave a word character or a digit
      in front of the rest, which neither `/` nor the end can follow, so the
      whole runs are the only ones that can lead to a match. */
  function HostPort(t: string): (r: Option<(string, Option<string>, string)>)
    ensures r.Some? ==>
      IsWord(r.value.0)
      && (r.value.1.Some? ==> IsNumeral(r.value.1.value))
      && t == r.value.0 + (PrefixText(r.value.1, ":") + r.value.2)
  {
    var n := RunLength(t, 0, IsWordChar);
    if n == 0 then None
    else
      var after := t[n..];
      RunPrefix(t, n, IsWordChar);
      var d := if 0 < |after| && after[0] == ':' then RunLength(after, 1, IsDigit) else 0;
      if d == 0 then
        Some((t[..n], None, after))
      else
        PortDigits(after, d);
        Some((t[..n], Some(after[1..1 + d]), after[1 + d..]))
  }

  lemma RunPrefix(t: string, n: nat, f: char -> bool)
    requires n <= |t| && forall i :: 0 <= i < n ==> f(t[i])
    ensures All(t[..n], f) && t == t[..n] + t[n..]
  {
  }

  lemma PortDigits(after: string, d: nat)
    requires 0 < |after| && after[0] == ':' && 0 < d && d == RunLength(after, 1, IsDigit)
    ensures IsNumeral(after[1..1 + d])
    ensures after == PrefixText(Some(after[1..1 + d]), ":") + after[1 + d..]
  {
    assert after == [after[0]] + after[1..1 + d] + after[1 + d..];
  }

  /** `(?:/(.+))?$`: nothing at all, or a slash and a database that runs to
      the end of the text. */
  function Tail(t: string): (r: Option<Option<string>>)
    ensures r.Some? ==>
      (r.value.Some? ==> IsDatabase(r.value.value)) && t == PrefixText(r.value, "/")
  {
    if |t| == 0 then Some(None)
    else if t[0] == '/' && 1 < |t| && All(t[1..], IsLineChar) then
      assert t == "/" + t[1..];
      Some(Some(t[1..]))
    else
      None
  }

  /** The host alternative: host, optional port and tail, with the
      credentials already read (or absent). */
  function HostTail(t: string, username: Option<string>, password: Option<string>): (r: Option<Groups>)
    ensures r.Some? ==>
      && r.value.username == username && r.value.password == password
      && r.value.host.Some?
      && IsWord(r.value.host.value)
      && (r.value.port.Some? ==> IsNumeral(r.value.port.value))
      && (r.value.database.Some? ==> IsDatabase(r.value.database.value))
      && t == AddressText(r.value)
  {
    match HostPort(t)
    case None => None
    case Some((h, port, rest)) =>
      match Tail(rest)
      case None => None
      case Some(db) =>
        AddressOf(username, password, h, port, db);
        Some(Groups(username, password, Some(h), port, db))
  }

  lemma AddressOf(u: Option<string>, p: Option<string>, h: string, port: Option<string>, db: Option<string>)
    ensures AddressText(Groups(u, p, Some(h), port, db)) == h + (PrefixText(port, ":") + PrefixText(db, "/"))
  {
    assert PrefixText(Some(h), "") == h;
  }

  /** The whole pattern, in the order the backtracking matcher tries its
      alternatives: with credentials, then without them, then with the host
      part skipped altogether. */
  function MatchLocation(s: string): (r: Option<Groups>)
    ensures r.Some? ==> WellFormed(r.value) && Render(r.value) == s
  {
    var withCredentials :=
      match Credentials(s)
      case None => None
      case Some((u, p, rest)) => HostTail(rest, Some(u), Some(p));
    if withCredentials.Some? then
      withCredentials
    else
      var plain := HostTail(s, None, None);
      if plain.Some? then
        assert Render(plain.value) == "" + AddressText(plain.value);
        plain
      else
        match Tail(s)
        case None => None
        case Some(db) =>
          var g := Groups(None, None, None, None, db);
          assert Render(g) == "" + ("" + ("" + PrefixText(db, "/")));
          Some(g)
  }

  // ---------------------------------------------------------------------------
  // Keyword arguments
  // ---------------------------------------------------------------------------

  const Keywords: set<string> := {"username", "password", "host", "port", "database"}

  /** What a successful call promises about its dictionary: only the five
      keywords, username and password together, credentials and port only
      next to a host, the port a number and everything else non-empty text. */
  predicate ArgsShape(m: Args) {
    && m.Keys <= Keywords
    && ("username" in m <==> "password" in m)
    && ("username" in m ==> "host" in m)
    && ("port" in m ==> "host" in m && m["port"].Num?)
    && (forall k :: k in m && k != "port" ==> m[k].Str? && |m[k].str| > 0)
  }

  function Put(m: Args, key: string, o: Option<string>): Args {
    if o.Some? then m[key := Str(o.value)] else m
  }

  /** The dictionary built from the groups: a keyword for every group that
      matched, the port converted with `int`. */
  function ArgsOf(g: Groups): Args
    requires g.port.Some? ==> All(g.port.value, IsDigit)
  {
    var m := Put(Put(Put(map[], "username", g.username), "password", g.password), "host", g.host);
    var m := if g.port.Some? then m["port" := Num(ValueOf(g.port.value))] else m;
    Put(m, "database", g.database)
  }

  function InfluxArgs(loc: string): (r: Result<Args, LocationError>)
    ensures r.Failure? <==> MatchLocation(loc).None?
    ensures r.Failure? ==> r.error == BadLocation(loc)
    ensures r.Success? ==> ArgsShape(r.value)
  {
    match MatchLocation(loc)
    case None => Failure(BadLocation(loc))
    case Some(g) =>
      ArgsOfShape(g);
      Success(ArgsOf(g))
  }

  lemma PutText(m: Args, key: string, o: Option<string>)
    requires forall k :: k in m && k != "port" ==> m[k].Str? && |m[k].str| > 0
    requires key != "port" && (o.Some? ==> |o.value| > 0)
    ensures var m' := Put(m, key, o);
      && m'.Keys == m.Keys + (if o.Some? then {key} else {})
      && (forall k :: k in m' && k != "port" ==> m'[k].Str? && |m'[k].str| > 0)
  {
  }

  lemma ArgsOfShape(g: Groups)
    requires WellFormed(g)
    ensures ArgsShape(ArgsOf(g))
  {
    var m0: Args := map[];
    PutText(m0, "username", g.username);
    var m1 := Put(m0, "username", g.username);
    PutText(m1, "password", g.password);
    var m2 := Put(m1, "password", g.password);
    PutText(m2, "host", g.host);
    var m3 := Put(m2, "host", g.host);
    var m4 := if g.port.Some? then m3["port" := Num(ValueOf(g.port.value))] else m3;
    PutText(m4, "database", g.database);
  }

  // ---------------------------------------------------------------------------
  // Reading rendered locations back
  // ---------------------------------------------------------------------------

  lemma WordThenOf(w: string, sep: char, rest: string)
    requires IsWord(w) && !IsWordChar(sep)
    ensures WordThen(w + ([sep] + rest), sep) == Some((w, rest))
  {
    var t := w + ([sep] + rest);
    RunLengthConcat(w, [sep] + rest, IsWordChar);
    assert t[..|w|] == w && t[|w|] == sep && t[|w| + 1..] == rest;
  }

  lemma CredentialsOf(u: string, p: string, rest: string)
    requires IsWord(u) && IsWord(p)
    ensures Credentials(CredentialsText(Some(u), Some(p)) + rest) == Some((u, p, rest))
  {
    JoinCredentials(u, p, rest);
    WordThenOf(u, '/', p + ("@" + rest));
    WordThenOf(p, '@', rest);
  }

  lemma HostPortOf(h: string, port: Option<string>, rest: string)
    requires IsWord(h) && (port.Some? ==> IsNumeral(port.value))
    requires |rest| == 0 || rest[0] == '/'
    ensures HostPort(h + (PrefixText(port, ":") + rest)) == Some((h, port, rest))
  {
    var after := PrefixText(port, ":") + rest;
    RunLengthConcat(h, after, IsWordChar);
    assert (h + after)[..|h|] == h && (h + after)[|h|..] == after;
    if port.Some? {
      PortOf(port.value, rest);
    } else {
      assert after == rest;
    }
  }

  /** The port digits after the colon are the whole digit run. */
  lemma PortOf(ds: string, rest: string)
    requires IsNumeral(ds) && (|rest| == 0 || rest[0] == '/')
    ensures var after := PrefixText(Some(ds), ":") + rest;
      && 0 < |after| && after[0] == ':'
      && RunLength(after, 1, IsDigit) == |ds|
      && after[1..1 + |ds|] == ds && after[1 + |ds|..] == rest
  {
    var after := ":" + ds + rest;
    forall i | 1 <= i < 1 + |ds| ensures IsDigit(after[i]) {
      assert after[i] == ds[i - 1];
    }
    if 1 + |ds| < |after| {
      assert after[1 + |ds|] == rest[0];
    }
    RunLengthExact(after, 1, IsDigit, |ds|);
    assert after[1..1 + |ds|] == ds && after[1 + |ds|..] == rest;
  }

  lemma TailOf(db: Option<string>)
    requires db.Some? ==> IsDatabase(db.value)
    ensures Tail(PrefixText(db, "/")) == Some(db)
  {
    if db.Some? {
      assert PrefixText(db, "/")[1..] == db.value;
    }
  }

  lemma HostTailOf(g: Groups)
    requires WellFormed(g) && g.host.Some?
    ensures HostTail(AddressText(g), g.username, g.password) == Some(g)
  {
    var rest := PrefixText(g.database, "/");
    assert AddressText(g) == g.host.value + (PrefixText(g.port, ":") + rest);
    HostPortOf(g.host.value, g.port, rest);
    TailOf(g.database);
  }

  /** Text that cannot start the host part: no word character in front. */
  lemma NoHostPart(t: string)
    requires |t| == 0 || !IsWordChar(t[0])
    ensures Credentials(t).None? && HostPort(t).None?
  {
  }

  /** The credentials alternative needs an `@`. */
  lemma CredentialsNeedAt(t: string)
    requires '@' !in t
    ensures Credentials(t).None?
  {
  }

  lemma AddressWithoutAt(g: Groups)
    requires WellFormed(g)
    requires g.database.Some? ==> '@' !in g.database.value
    ensures '@' !in AddressText(g)
  {
  }

  /** A location is read back as the groups it was written from unless it has
      no credentials but a host and a database containing `@`: then the
      credentials alternative, which the matcher tries first, may claim the
      front of the database. */
  predicate Unambiguous(g: Groups) {
    g.username.Some? || g.host.None? || g.database.None? || '@' !in g.database.value
  }

  lemma {:induction false} MatchRendered(g: Groups)
    requires WellFormed(g) && Unambiguous(g)
    ensures MatchLocation(Render(g)) == Some(g)
  {
    if g.username.Some? {
      CredentialsOf(g.username.value, g.password.value, AddressText(g));
      HostTailOf(g);
    } else if g.host.Some? {
      assert Render(g) == AddressText(g);
      AddressWithoutAt(g);
      CredentialsNeedAt(AddressText(g));
      HostTailOf(g);
    } else {
      assert Render(g) == PrefixText(g.database, "/");
      NoHostPart(Render(g));
      TailOf(g.database);
    }
  }

  /** Every well-formed location is accepted, ambiguous ones included. */
  lemma {:induction false} MatchesEveryLocation(g: Groups)
    requires WellFormed(g)
    ensures MatchLocation(Render(g)).Some?
  {
    if Unambiguous(g) {
      MatchRendered(g);
    } else {
      assert Render(g) == AddressText(g);
      HostTailOf(g);
    }
  }

  /** The matcher accepts exactly the texts of the location grammar. */
  lemma AcceptsExactlyLocations(s: string)
    ensures MatchLocation(s).Some? <==> exists g :: WellFormed(g) && Render(g) == s
  {
    if g :| WellFormed(g) && Render(g) == s {
      MatchesEveryLocation(g);
    }
  }

  // ---------------------------------------------------------------------------
  // Keyword arguments back to a location
  // ---------------------------------------------------------------------------

  function TextArg(m: Args, key: string): Option<string> {
    if key in m && m[key].Str? then Some(m[key].str) else None
  }

  predicate WordArg(m: Args, key: string) {
    key in m ==> m[key].Str? && All(m[key].str, IsWordChar)
  }

  /** Keyword arguments whose location reads back as themselves, whatever
      they were produced from: the dictionary shape, word characters in the
      credentials and the host, no line break in the database, and no `@` in
      a database that follows a host without credentials (the arguments
      `{host: u, database: p@h}` are written `u/p@h`, which reads back as
      credentials). Arguments a location actually produced always come back,
      `@` or not: see `ProducedArgsRoundTrip`. */
  predicate ValidArgs(m: Args) {
    && ArgsShape(m)
    && WordArg(m, "username") && WordArg(m, "password") && WordArg(m, "host")
    && ("database" in m ==> All(m["database"].str, IsLineChar))
    && ("database" in m && "host" in m && "username" !in m ==> '@' !in m["database"].str)
  }

  /** The location a user writes for a set of keyword arguments, with the
      port in decimal. */
  function LocationOf(m: Args): string {
    var port := if "port" in m && m["port"].Num? then Some(NatToString(m["port"].num)) else None;
    Render(Groups(TextArg(m, "username"), TextArg(m, "password"), TextArg(m, "host"), port, TextArg(m, "database")))
  }

  lemma ArgsOfGroups(m: Args, g: Groups)
    requires ArgsShape(m)
    requires g.username == TextArg(m, "username") && g.password == TextArg(m, "password")
    requires g.host == TextArg(m, "host") && g.database == TextArg(m, "database")
    requires g.port == (if "port" in m then Some(NatToString(m["port"].num)) else None)
    ensures ArgsOf(g) == m
  {
    var a := ArgsOf(g);
    forall k | k in Keywords ensures (k in a <==> k in m) && (k in m ==> a[k] == m[k]) {
    }
    assert a.Keys == m.Keys;
  }

  /** Writing keyword arguments as a location and parsing it gives them back. */
  lemma {:induction false} ArgsRoundTrip(m: Args)
    requires ValidArgs(m)
    ensures InfluxArgs(LocationOf(m)) == Success(m)
  {
    var port := if "port" in m && m["port"].Num? then Some(NatToString(m["port"].num)) else None;
    var g := Groups(TextArg(m, "username"), TextArg(m, "password"), TextArg(m, "host"), port, TextArg(m, "database"));
    assert WellFormed(g);
    MatchRendered(g);
    ArgsOfGroups(m, g);
  }

  /** The groups `LocationOf` writes for the arguments of a location: the
      same groups, with the port digits written afresh in decimal. */
  lemma GroupsOfArgs(g: Groups)
    requires WellFormed(g)
    ensures var m := ArgsOf(g);
      && TextArg(m, "username") == g.username && TextArg(m, "password") == g.password
      && TextArg(m, "host") == g.host && TextArg(m, "database") == g.database
      && ("port" in m <==> g.port.Some?)
      && (g.port.Some? ==> m["port"] == Num(ValueOf(g.port.value)))
  {
  }

  /** A location with a host, a port and no credentials: the colon after the
      host stops the credentials alternative, so the host alternative reads it. */
  lemma {:induction false} PortWithoutCredentials(g: Groups)
    requires WellFormed(g) && g.username.None? && g.host.Some? && g.port.Some?
    ensures MatchLocation(Render(g)) == Some(g)
  {
    var h := g.host.value;
    var after := PrefixText(g.port, ":") + PrefixText(g.database, "/");
    var t := Render(g);
    assert t == h + after;
    assert after[0] == ':';
    RunLengthConcat(h, after, IsWordChar);
    assert t[|h|] == ':';
    assert WordThen(t, '/').None?;
    assert Credentials(t).None?;
    HostTailOf(g);
  }

  /** The arguments any location produces, written out as a location again
      and parsed, come back unchanged. The location written may differ from
      the original only in the port's leading zeros. */
  lemma {:induction false} ProducedArgsRoundTrip(s: string)
    requires InfluxArgs(s).Success?
    ensures InfluxArgs(LocationOf(InfluxArgs(s).value)) == InfluxArgs(s)
  {
    var g := MatchLocation(s).value;
    var m := ArgsOf(g);
    assert InfluxArgs(s) == Success(m);
    GroupsOfArgs(g);
    var port := if "port" in m && m["port"].Num? then Some(NatToString(m["port"].num)) else None;
    var g' := Groups(TextArg(m, "username"), TextArg(m, "password"), TextArg(m, "host"), port, TextArg(m, "database"));
    assert LocationOf(m) == Render(g');
    if g.port.None? {
      assert g' == g;
    } else {
      assert WellFormed(g');
      if g.username.Some? {
        MatchRendered(g');
      } else {
        PortWithoutCredentials(g');
      }
      ArgsOfShape(g);
      ArgsOfGroups(m, g');
    }
  }

  // ---------------------------------------------------------------------------
  // Examples
  // ---------------------------------------------------------------------------

  /** A rendered unambiguous location yields the keyword arguments of its groups. */
  lemma ReadBack(g: Groups)
    requires WellFormed(g) && Unambiguous(g)
    ensures InfluxArgs(Render(g)) == Success(ArgsOf(g))
  {
    MatchRendered(g);
  }

  /** `(\w+)(?::(\d+))?` on a host followed by a colon and no digit: the port
      group stays empty and the colon is left over. */
  lemma HostWithoutPort(h: string, rest: string)
    requires IsWord(h) && 0 < |rest| && rest[0] == ':' && (|rest| == 1 || !IsDigit(rest[1]))
    ensures HostPort(h + rest) == Some((h, None, rest))
  {
    RunLengthConcat(h, rest, IsWordChar);
    assert (h + rest)[..|h|] == h && (h + rest)[|h|..] == rest;
  }

  /** An empty location gives no keyword arguments at all. */
  lemma EmptyLocation()
    ensures InfluxArgs("") == Success(map[])
  {
    ReadBack(Groups(None, None, None, None, None));
  }

  lemma FullLocationText()
    ensures Render(Groups(Some("u"), Some("p"), Some("h"), Some("8086"), Some("db"))) == "u/p@h:8086/db"
    ensures ValueOf("8086") == 8086
  {
    assert "8086"[..3] == "808" && "808"[..2] == "80" && "80"[..1] == "8";
  }

  lemma FullLocation()
    ensures InfluxArgs("u/p@h:8086/db") == Success(map[
      "username" := Str("u"), "password" := Str("p"), "host" := Str("h"),
      "port" := Num(8086), "database" := Str("db")])
  {
    FullLocationText();
    ReadBack(Groups(Some("u"), Some("p"), Some("h"), Some("8086"), Some("db")));
  }

  lemma LeadingZerosText()
    ensures Render(Groups(None, None, Some("h"), Some("0080"), None)) == "h:0080"
    ensures ValueOf("0080") == 80
  {
    assert "0080"[..3] == "008" && "008"[..2] == "00" && "00"[..1] == "0";
  }

  /** The port is converted with `int`, so leading zeros are dropped. */
  lemma PortLeadingZeros()
    ensures InfluxArgs("h:0080") == Success(map["host" := Str("h"), "port" := Num(80)])
  {
    LeadingZerosText();
    ReadBack(Groups(None, None, Some("h"), Some("0080"), None));
  }

  /** A host followed by a colon that no digit follows is not a location. */
  lemma {:induction false} HostThenStrayColon(h: string, rest: string)
    requires IsWord(h) && 0 < |rest| && rest[0] == ':' && (|rest| == 1 || !IsDigit(rest[1]))
    requires '@' !in h + rest
    ensures InfluxArgs(h + rest) == Failure(BadLocation(h + rest))
  {
    CredentialsNeedAt(h + rest);
    HostWithoutPort(h, rest);
    assert HostTail(h + rest, None, None).None?;
    assert (h + rest)[0] == h[0];
    assert Tail(h + rest).None?;
    assert MatchLocation(h + rest).None?;
  }

  /** A stray colon after the host leaves nothing the tail accepts. */
  lemma StrayColonEndsHostPart(h: string, rest: string, u: Option<string>, p: Option<string>)
    requires IsWord(h) && 0 < |rest| && rest[0] == ':' && (|rest| == 1 || !IsDigit(rest[1]))
    ensures HostTail(h + rest, u, p).None?
  {
    HostWithoutPort(h, rest);
  }

  lemma ArgsOfHostDatabase(h: string, db: string)
    ensures ArgsOf(Groups(None, None, Some(h), None, Some(db))) == map["host" := Str(h), "database" := Str(db)]
  {
  }

  /** The second alternative is used when the first one fails. */
  lemma PlainAfterCredentials(s: string, u: string, p: string, rest: string, g: Groups)
    requires Credentials(s) == Some((u, p, rest)) && HostTail(rest, Some(u), Some(p)).None?
    requires HostTail(s, None, None) == Some(g)
    ensures InfluxArgs(s) == Success(ArgsOf(g))
  {
  }

  lemma AllConcat(a: string, b: string, f: char -> bool)
    requires All(a, f) && All(b, f)
    ensures All(a + b, f)
  {
    forall i | 0 <= i < |a + b| ensures f((a + b)[i]) {
      if i < |a| { assert (a + b)[i] == a[i]; } else { assert (a + b)[i] == b[i - |a|]; }
    }
  }

  lemma WordIsLine(w: string)
    requires All(w, IsWordChar)
    ensures All(w, IsLineChar)
  {
  }

  /** The database the fallback reads: password, `@`, host and the rest. */
  lemma FallBackDatabase(p: string, h: string, rest: string)
    requires IsWord(p) && IsWord(h) && All(rest, IsLineChar)
    ensures IsDatabase(p + ("@" + (h + rest)))
  {
    WordIsLine(p);
    WordIsLine(h);
    AllConcat(h, rest, IsLineChar);
    AllConcat("@", h + rest, IsLineChar);
    AllConcat(p, "@" + (h + rest), IsLineChar);
  }

  lemma AddressOfHostDatabase(h: string, db: string)
    ensures AddressText(Groups(None, None, Some(h), None, Some(db))) == h + ("/" + db)
  {
    assert PrefixText(Some(h), "") == h;
    assert PrefixText(None, ":") + PrefixText(Some(db), "/") == "/" + db;
  }

  /** When the credentials alternative cannot finish because its host is
      followed by a stray colon, the matcher falls back to reading the
      username as the host and everything after the first slash as the
      database. */
  lemma {:induction false} CredentialsFallBackToDatabase(u: string, p: string, h: string, rest: string)
    requires IsWord(u) && IsWord(p) && IsWord(h)
    requires 0 < |rest| && rest[0] == ':' && (|rest| == 1 || !IsDigit(rest[1]))
    requires All(rest, IsLineChar)
    ensures var db := p + ("@" + (h + rest));
      InfluxArgs(u + ("/" + db)) == Success(map["host" := Str(u), "database" := Str(db)])
  {
    var db := p + ("@" + (h + rest));
    var t := u + ("/" + db);
    JoinCredentials(u, p, h + rest);
    CredentialsOf(u, p, h + rest);
    StrayColonEndsHostPart(h, rest, Some(u), Some(p));
    var g := Groups(None, None, Some(u), None, Some(db));
    FallBackDatabase(p, h, rest);
    AddressOfHostDatabase(u, db);
    HostTailOf(g);
    PlainAfterCredentials(t, u, p, h + rest, g);
    ArgsOfHostDatabase(u, db);
  }

  lemma CredentialsFallBackExample()
    ensures InfluxArgs("u/p@h:abc") == Success(map["host" := Str("u"), "database" := Str("p@h:abc")])
  {
    assert "p" + ("@" + ("h" + ":abc")) == "p@h:abc";
    assert "u" + ("/" + "p@h:abc") == "u/p@h:abc";
    CredentialsFallBackToDatabase("u", "p", "h", ":abc");
  }
}

=== FILE: text.dfy ===
/** Character classes, maximal runs, decimal numerals and separator splitting.
    Character classes are the ASCII readings of the regular-expression classes
    `\d`, `\w`, `\s` and `[0-9a-fA-F]`. */
module Text {
  import opened Wrappers

  predicate IsDigit(c: char) { '0' <= c <= '9' }

  predicate IsHexDigit(c: char) { IsDigit(c) || 'a' <= c <= 'f' || 'A' <= c <= 'F' }

  predicate IsWordChar(c: char) { IsDigit(c) || 'a' <= c <= 'z' || 'A' <= c <= 'Z' || c == '_' }

  predicate IsSpace(c: char) {
    c == ' ' || c == '\t' || c == '\n' || c == '\r' || c == '\U{0B}' || c == '\U{0C}'
  }

  /** Every character of `s` satisfies `f`. */
  predicate All(s: string, f: char -> bool) {
    forall i :: 0 <= i < |s| ==> f(s[i])
  }

  /** ASCII lower-casing, the folding a case-insensitive pattern applies to letters. */
  function Lower(c: char): (l: char)
    ensures 'A' <= c <= 'Z' ==> 'a' <= l <= 'z' && l as int - c as int == 32
    ensures !('A' <= c <= 'Z') ==> l == c
  {
    if 'A' <= c <= 'Z' then (c as int + 32) as char else c
  }

  function LowerString(s: string): (t: string)
    ensures |t| == |s|
    ensures forall i :: 0 <= i < |s| ==> t[i] == Lower(s[i])
  {
    seq(|s|, i requires 0 <= i < |s| => Lower(s[i]))
  }

  /** Length of the longest run of characters satisfying `f` that starts at `p`:
      the extent a greedy `x+` or `x*` takes. */
  function RunLength(s: string, p: nat, f: char -> bool): (n: nat)
    requires p <= |s|
    ensures p + n <= |s|
    ensures forall i :: p <= i < p + n ==> f(s[i])
    ensures p + n == |s| || !f(s[p + n])
    decreases |s| - p
  {
    if p < |s| && f(s[p]) then 1 + RunLength(s, p + 1, f) else 0
  }

  /** A run of `m` characters satisfying `f`, not followed by one, is the maximal run. */
  lemma RunLengthExact(s: string, p: nat, f: char -> bool, m: nat)
    requires p + m <= |s|
    requires forall i :: p <= i < p + m ==> f(s[i])
    requires p + m == |s| || !f(s[p + m])
    ensures RunLength(s, p, f) == m
  {
  }

  function DigitValue(c: char): (d: nat)
    requires IsDigit(c)
    ensures d < 10
  {
    c as int - '0' as int
  }

  function DigitChar(d: nat): (c: char)
    requires d < 10
    ensures IsDigit(c) && DigitValue(c) == d
  {
    ('0' as int + d) as char
  }

  /** The value of a decimal numeral, most significant digit first (Python's `int`
      on a digit string; leading zeros are allowed). */
  function ValueOf(ds: string): nat
    requires All(ds, IsDigit)
    decreases |ds|
  {
    if |ds| == 0 then 0 else 10 * ValueOf(ds[..|ds| - 1]) + DigitValue(ds[|ds| - 1])
  }

  /** The canonical decimal numeral of `n` (Python's `str` on an int). */
  function NatToString(n: nat): (s: string)
    ensures |s| > 0 && All(s, IsDigit)
    ensures ValueOf(s) == n
    decreases n
  {
    if n < 10 then [DigitChar(n)]
    else
      var prefix := NatToString(n / 10);
      var s := prefix + [DigitChar(n % 10)];
      assert s[..|s| - 1] == prefix;
      s
  }

  /** Position of the first occurrence of `c` in `s`, if any. */
  function IndexOf(s: string, c: char): (r: Option<nat>)
    ensures r.None? <==> c !in s
    ensures r.Some? ==> r.value < |s| && s[r.value] == c && c !in s[..r.value]
  {
    if |s| == 0 then None
    else if s[0] == c then Some(0)
    else match IndexOf(s[1..], c)
      case None => None
      case Some(i) =>
        assert s[..i + 1] == [s[0]] + s[1..][..i];
        Some(i + 1)
  }

  /** `parts` glued together with `sep` between neighbours (Python's `sep.join`). */
  function Join(parts: seq<string>, sep: char): string
    requires |parts| > 0
  {
    if |parts| == 1 then parts[0] else parts[0] + [sep] + Join(parts[1..], sep)
  }

  /** Python's `s.split(sep)` for a one-character separator: the pieces between
      consecutive separators, empty pieces included. */
  function Split(s: string, sep: char): (parts: seq<string>)
    ensures |parts| > 0
    ensures forall i :: 0 <= i < |parts| ==> sep !in parts[i]
    ensures Join(parts, sep) == s
    decreases |s|
  {
    match IndexOf(s, sep)
    case None => [s]
    case Some(i) =>
      var rest := Split(s[i + 1..], sep);
      var parts := [s[..i]] + rest;
      assert parts[1..] == rest;
      assert s == s[..i] + [sep] + s[i + 1..];
      parts
  }

  lemma {:induction false} IndexOfJoined(a: string, sep: char, b: string)
    requires sep !in a
    ensures IndexOf(a + [sep] + b, sep) == Some(|a|)
    decreases |a|
  {
    var s := a + [sep] + b;
    if |a| > 0 {
      assert s[1..] == a[1..] + [sep] + b;
      IndexOfJoined(a[1..], sep, b);
    }
  }

  /** Splitting text that starts with a separator-free piece and a separator. */
  lemma SplitJoinedPair(a: string, sep: char, b: string)
    requires sep !in a
    ensures Split(a + [sep] + b, sep) == [a] + Split(b, sep)
  {
    IndexOfJoined(a, sep, b);
    var s := a + [sep] + b;
    assert s[..|a|] == a;
    assert s[|a| + 1..] == b;
  }

  /** Splitting undoes joining when no piece contains the separator. */
  lemma {:induction false} SplitOfJoin(parts: seq<string>, sep: char)
    requires |parts| > 0
    requires forall i :: 0 <= i < |parts| ==> sep !in parts[i]
    ensures Split(Join(parts, sep), sep) == parts
    decreases |parts|
  {
    if |parts| > 1 {
      var rest := Join(parts[1..], sep);
      assert sep !in parts[0];
      SplitJoinedPair(parts[0], sep, rest);
      SplitOfJoin(parts[1..], sep);
      assert parts == [parts[0]] + parts[1..];
    } else {
      assert sep !in parts[0];
    }
  }

  /** The first piece of a split is the text before the first separator. */
  lemma SplitHead(s: string, sep: char)
    ensures sep !in s ==> Split(s, sep) == [s]
    ensures sep in s ==> Split(s, sep)[0] == s[..IndexOf(s, sep).value]
    ensures sep in s ==> Split(s, sep)[1..] == Split(s[IndexOf(s, sep).value + 1..], sep)
  {
  }

  /** The first piece of a split is a prefix of the text. */
  lemma SplitFirstIsPrefix(s: string, sep: char)
    ensures Split(s, sep)[0] <= s
  {
    SplitHead(s, sep);
  }

  /** The run at the front of `a + b` is `a` when `b` does not continue it. */
  lemma RunLengthConcat(a: string, b: string, f: char -> bool)
    requires All(a, f)
    requires |b| == 0 || !f(b[0])
    ensures RunLength(a + b, 0, f) == |a|
  {
    var s := a + b;
    forall i | 0 <= i < |a| ensures f(s[i]) {
      assert s[i] == a[i];
    }
    if |b| > 0 {
      assert s[|a|] == b[0];
    }
    RunLengthExact(s, 0, f, |a|);
  }
}

=== FILE: timedelta.dfy ===
/** The duration parser of the InfluxDB loader (`parse_timedelta` in
    wiki_loader.py): an anchored, case-insensitive pattern of seven optional
    groups `<digits> <unit>`, weeks down to microseconds, whose captured
    multipliers are summed into a `timedelta`. A duration is a count of
    microseconds. */
module TimeDelta {
  import opened Wrappers
  import opened Text

  /** Microseconds in one unit of group `k` (weeks, days, hours, minutes,
      seconds, milliseconds, microseconds). */
  function UnitMicros(k: nat): nat
    requires k < 7
  {
    [604800000000, 86400000000, 3600000000, 60000000, 1000000, 1000, 1][k]
  }

  const MicrosPerDay: nat := 86400000000

  /** `timedelta` refuses more than this many days. */
  const MaxDays: nat := 999999999

  /** The unit spellings group `k` accepts after its number, lower case, in the
      order the pattern's alternations try them. For weeks to seconds the unit
      is required and the bare letter is the last resort; for milliseconds and
      microseconds the whole unit is optional. */
  function UnitSpellings(k: nat): seq<string>
    requires k < 7
  {
    [ ["weeks", "week", "w"],
      ["days", "day", "d"],
      ["hours", "hour", "hr", "h"],
      ["minutes", "minute", "mins", "min", "m"],
      ["seconds", "second", "secs", "sec", "s"],
      ["ms", "milliseconds", "millisecond"],
      ["us", "microseconds", "microsecond"] ][k]
  }

  predicate UnitOptional(k: nat) { k >= 5 }

  /** `t` begins with `lit` (lower case), compared case-insensitively. */
  predicate StartsWith(t: string, lit: string) {
    |lit| <= |t| && forall i :: 0 <= i < |lit| ==> Lower(t[i]) == lit[i]
  }

  /** Index of the first spelling in `alts`, from `from` on, that begins `t`. */
  function FirstSpelling(t: string, alts: seq<string>, from: nat): (r: Option<nat>)
    requires from <= |alts|
    ensures r.Some? ==> from <= r.value < |alts| && StartsWith(t, alts[r.value])
    ensures r.Some? ==> forall j :: from <= j < r.value ==> !StartsWith(t, alts[j])
    ensures r.None? ==> forall j :: from <= j < |alts| ==> !StartsWith(t, alts[j])
    decreases |alts| - from
  {
    if from == |alts| then None
    else if StartsWith(t, alts[from]) then Some(from)
    else FirstSpelling(t, alts, from + 1)
  }

  /** `r` is what is left of `t` after some characters were consumed from its front. */
  predicate IsSuffix(r: string, t: string) {
    |r| <= |t| && t[|t| - |r|..] == r
  }

  lemma SuffixOfDrop(r: string, t: string, a: nat)
    requires a <= |t| && IsSuffix(r, t[a..])
    ensures IsSuffix(r, t)
  {
    assert t[|t| - |r|..] == t[a..][|t[a..]| - |r|..];
  }

  /** Group `k` read from the front of `t` with its whole digit run: the
      multiplier and the text left after the trailing spaces.

      Of the pattern's choice points inside a group only these readings can
      lead to a match, since every other choice leaves a character that no
      later part of the pattern accepts (every group starts with a digit and
      the pattern ends with `$`):
      - a shorter digit run leaves a digit where spaces and a unit letter are
        required (the milliseconds group is the exception, see `MatchFrom`);
      - fewer spaces before the unit leave a space where the unit must start,
        or, when the unit is optional, end at the same place;
      - a spelling later in the alternation than the first that occurs is a
        proper prefix of it, so it leaves a letter behind;
      - fewer trailing spaces leave a space behind. */
  function GroupAt(t: string, k: nat): (r: Option<(nat, string)>)
    requires k < 7
    ensures r.Some? ==> |r.value.1| < |t| && IsSuffix(r.value.1, t)
  {
    Group(t, UnitSpellings(k), UnitOptional(k))
  }

  /** `GroupAt` for any list of spellings `alts`, the unit optional or not. */
  function Group(t: string, alts: seq<string>, optional: bool): (r: Option<(nat, string)>)
    ensures r.Some? ==> |r.value.1| < |t| && IsSuffix(r.value.1, t)
  {
    var n := RunLength(t, 0, IsDigit);
    if n == 0 then None
    else
      var digits := t[..n];
      assert All(digits, IsDigit);
      var after := t[n..];
      var x := after[RunLength(after, 0, IsSpace)..];
      var r := UnitTail(ValueOf(digits), x, alts, optional);
      if r.None? then None
      else
        SuffixOfDrop(x, after, RunLength(after, 0, IsSpace));
        SuffixOfDrop(r.value.1, after, RunLength(after, 0, IsSpace));
        SuffixOfDrop(r.value.1, t, n);
        r
  }

  /** The unit of a group and its trailing spaces, read from the front of `x`
      once the multiplier `v` and the spaces after it are consumed. */
  function UnitTail(v: nat, x: string, alts: seq<string>, optional: bool): (r: Option<(nat, string)>)
    ensures r.Some? ==> r.value.0 == v && IsSuffix(r.value.1, x)
  {
    match FirstSpelling(x, alts, 0)
    case Some(i) =>
      var w := x[|alts[i]|..];
      SuffixOfDrop(w[RunLength(w, 0, IsSpace)..], x, |alts[i]|);
      Some((v, w[RunLength(w, 0, IsSpace)..]))
    case None =>
      if optional then Some((v, x)) else None
  }

  /** Prepend a capture to the captures of the following groups. */
  function Prepend(c: Option<nat>, rest: Option<seq<Option<nat>>>): Option<seq<Option<nat>>> {
    match rest
    case None => None
    case Some(cs) => Some([c] + cs)
  }

  /** The captures of groups `k` to 6 for the text `t`, or `None` when they
      cannot match all of it. Each group is first tried (`GroupAt`), and
      skipped when the rest of the pattern then fails, as the optional group
      `(?:...)?` is tried before it is skipped.

      The milliseconds group is the one place where giving digits back
      matters: its unit is optional, so with a run of two or more digits it
      may stop one digit early and let the microseconds group take the last
      digit. Python's engine tries that reading after the whole run and
      before skipping the group; `asWritten` includes it, and without it the
      parser is the corrected one in which the microseconds group takes the
      whole run. (Stopping more than one digit early changes nothing: the
      microseconds group then fails or succeeds exactly as it does after one.) */
  function MatchFrom(t: string, k: nat, asWritten: bool): (r: Option<seq<Option<nat>>>)
    requires k <= 7
    ensures r.Some? ==> |r.value| == 7 - k
    decreases 7 - k, 2
  {
    if k == 7 then
      if |t| == 0 then Some([]) else None
    else
      var taken := Taken(t, k, asWritten);
      var split := if asWritten && k == 5 then SplitDigits(t, asWritten) else None;
      if taken.Some? then taken
      else if split.Some? then split
      else Prepend(None, MatchFrom(t, k + 1, asWritten))
  }

  /** The captures when group `k` is read from the front of `t` and the later
      groups match the rest. */
  function Taken(t: string, k: nat, asWritten: bool): (r: Option<seq<Option<nat>>>)
    requires k < 7
    ensures r.Some? ==> |r.value| == 7 - k && r.value[0].Some?
    decreases 7 - k, 1
  {
    match GroupAt(t, k)
    case None => None
    case Some((v, rest)) => Prepend(Some(v), MatchFrom(rest, k + 1, asWritten))
  }

  /** The milliseconds group stopping one digit before the end of its run, the
      microseconds group then read from the last digit. */
  function SplitDigits(t: string, asWritten: bool): (r: Option<seq<Option<nat>>>)
    ensures r.Some? ==> |r.value| == 2
    decreases 2, 0
  {
    var n := RunLength(t, 0, IsDigit);
    if n < 2 then None
    else
      var digits := t[..n - 1];
      assert All(digits, IsDigit);
      Prepend(Some(ValueOf(digits)), MatchFrom(t[n - 1..], 6, asWritten))
  }

  /** The duration the captures denote: each multiplier times its unit,
      omitted groups contributing nothing. */
  function TotalFrom(caps: seq<Option<nat>>, k: nat): nat
    requires k <= 7 && |caps| == 7
    decreases 7 - k
  {
    if k == 7 then 0 else Contribution(caps, k) + TotalFrom(caps, k + 1)
  }

  /** What group `k` adds to the duration. */
  function Contribution(caps: seq<Option<nat>>, k: nat): nat
    requires k < 7 && |caps| == 7
  {
    match caps[k] case None => 0 case Some(v) => v * UnitMicros(k)
  }

  function Total(caps: seq<Option<nat>>): nat
    requires |caps| == 7
  {
    TotalFrom(caps, 0)
  }

  datatype DeltaError =
    | BadFormat  // the pattern does not match: `ValueError`
    | Overflow   // `MaxDays + 1` days or more: `OverflowError` from `timedelta`

  /** What `parse_timedelta` returns for the pattern's captures: `ValueError`
      without a match, otherwise the sum of the multipliers times their units,
      or `OverflowError` from `timedelta` when that reaches `MaxDays + 1` days. */
  function FromCaptures(m: Option<seq<Option<nat>>>): (r: Result<nat, DeltaError>)
    requires m.Some? ==> |m.value| == 7
    ensures r.Success? ==> r.value < (MaxDays + 1) * MicrosPerDay
    ensures m.None? <==> r == Failure(BadFormat)
    ensures m.Some? ==> (r == Failure(Overflow) <==> Total(m.value) >= (MaxDays + 1) * MicrosPerDay)
    ensures m.Some? && r.Success? ==> r.value == Total(m.value)
  {
    match m
    case None => Failure(BadFormat)
    case Some(caps) =>
      var total := Total(caps);
      if total / MicrosPerDay > MaxDays then Failure(Overflow) else Success(total)
  }

  /** `parse_timedelta` as the code behaves, digit give-back included. */
  function ParseTimedelta(text: string): (r: Result<nat, DeltaError>)
    ensures r.Success? ==> r.value < (MaxDays + 1) * MicrosPerDay
  {
    FromCaptures(MatchFrom(text, 0, true))
  }

  /** `parse_timedelta` with the microseconds group taking its whole digit run. */
  function ParseTimedeltaIntended(text: string): (r: Result<nat, DeltaError>)
    ensures r.Success? ==> r.value < (MaxDays + 1) * MicrosPerDay
  {
    FromCaptures(MatchFrom(text, 0, false))
  }

  // ---------------------------------------------------------------------------
  // The unit spellings

  predicate IsLowerLetter(c: char) { 'a' <= c <= 'z' }

  /** A non-empty word of lower-case letters. */
  predicate IsLowerWord(s: string) {
    |s| > 0 && forall i :: 0 <= i < |s| ==> IsLowerLetter(s[i])
  }

  /** `w` cannot continue a word: it is empty or starts with a non-letter,
      whatever its case. */
  predicate EndsWord(w: string) {
    |w| == 0 || !IsLowerLetter(Lower(w[0]))
  }

  lemma SpellingsAreWords(k: nat)
    requires k < 7
    ensures forall i :: 0 <= i < |UnitSpellings(k)| ==> IsLowerWord(UnitSpellings(k)[i])
  {
  }

  /** `a` is longer than `b` or differs from it in one of its first three letters. */
  predicate Departs(a: string, b: string) {
    |a| > |b| || (|a| > 0 && a[0] != b[0]) || (|a| > 1 && a[1] != b[1]) || (|a| > 2 && a[2] != b[2])
  }

  lemma DepartsNotPrefix(a: string, b: string)
    requires Departs(a, b)
    ensures !(a <= b)
  {
  }

  /** No spelling is a prefix of one the alternation tries after it, so none
      hides a later one. */
  lemma SpellingsInOrder(k: nat)
    requires k < 7
    ensures forall j, i :: 0 <= j < i < |UnitSpellings(k)| ==> !(UnitSpellings(k)[j] <= UnitSpellings(k)[i])
  {
    var alts := UnitSpellings(k);
    forall j, i | 0 <= j < i < |alts| ensures !(alts[j] <= alts[i]) {
      assert Departs(alts[j], alts[i]);
      DepartsNotPrefix(alts[j], alts[i]);
    }
  }

  /** No spelling of group `k` is a prefix of a spelling of an earlier group
      `j`; in particular no two groups share a spelling. */
  lemma LaterNotPrefix(j: nat, k: nat)
    requires j < k < 7
    ensures forall p, q :: 0 <= p < |UnitSpellings(k)| && 0 <= q < |UnitSpellings(j)| ==>
      !(UnitSpellings(k)[p] <= UnitSpellings(j)[q])
  {
    var later := UnitSpellings(k);
    var earlier := UnitSpellings(j);
    forall p, q | 0 <= p < |later| && 0 <= q < |earlier| ensures !(later[p] <= earlier[q]) {
      assert Departs(later[p], earlier[q]);
      DepartsNotPrefix(later[p], earlier[q]);
    }
  }

  /** A lower-case word is found, case-insensitively, at the front of itself. */
  lemma StartsWithOwn(lit: string, tail: string)
    requires forall i :: 0 <= i < |lit| ==> IsLowerLetter(lit[i])
    ensures StartsWith(lit + tail, lit)
  {
    forall i | 0 <= i < |lit| ensures Lower((lit + tail)[i]) == lit[i] {
      assert (lit + tail)[i] == lit[i];
    }
  }

  /** A lower-case word `a` found at the front of the word `s` followed by a
      text `w` that does not continue it is a prefix of `s`. */
  lemma FoundIsPrefix(s: string, w: string, a: string)
    requires IsLowerWord(s) && IsLowerWord(a) && EndsWord(w)
    ensures StartsWith(s + w, a) ==> a <= s
  {
    var x := s + w;
    if |a| > |s| {
      if |a| <= |x| {
        assert x[|s|] == w[0];
      }
    } else {
      forall m | 0 <= m < |a| ensures Lower(x[m]) == s[m] {
        assert x[m] == s[m];
      }
      assert StartsWith(x, a) ==> a == s[..|a|];
    }
  }

  /** `FirstSpelling` finds `i` when it matches and none before it does. */
  lemma {:induction false} FirstSpellingIs(x: string, alts: seq<string>, from: nat, i: nat)
    requires from <= i < |alts| && StartsWith(x, alts[i])
    requires forall j :: from <= j < i ==> !StartsWith(x, alts[j])
    ensures FirstSpelling(x, alts, from) == Some(i)
    decreases i - from
  {
    if from < i {
      FirstSpellingIs(x, alts, from + 1, i);
    }
  }

  /** A spelling followed by a text that does not continue it is read as
      that spelling, when no spelling tried before it is a prefix of it. */
  lemma SpellingFound(alts: seq<string>, i: nat, w: string)
    requires i < |alts| && EndsWord(w)
    requires forall j :: 0 <= j <= i ==> IsLowerWord(alts[j])
    requires forall j :: 0 <= j < i ==> !(alts[j] <= alts[i])
    ensures FirstSpelling(alts[i] + w, alts, 0) == Some(i)
  {
    var x := alts[i] + w;
    StartsWithOwn(alts[i], w);
    forall j | 0 <= j < i ensures !StartsWith(x, alts[j]) {
      FoundIsPrefix(alts[i], w, alts[j]);
    }
    FirstSpellingIs(x, alts, 0, i);
  }

  /** A group reading a word `u` that is none of its spellings, followed by a
      text that does not continue it: the group is refused, or it takes a
      shorter spelling and leaves a letter behind, or (optional unit) it
      leaves the word itself. */
  lemma UnitTailOther(v: nat, u: string, w: string, alts: seq<string>, optional: bool)
    requires IsLowerWord(u) && EndsWord(w)
    requires forall p :: 0 <= p < |alts| ==> IsLowerWord(alts[p]) && alts[p] != u
    ensures var r := UnitTail(v, u + w, alts, optional);
      r.None? || (|r.value.1| > 0 && IsLowerLetter(r.value.1[0]))
  {
    var x := u + w;
    match FirstSpelling(x, alts, 0)
    case Some(p) =>
      FoundIsPrefix(u, w, alts[p]);
      ProperPrefix(alts[p], u);
      var n := |alts[p]|;
      var y := x[n..];
      assert y[0] == u[n];
      assert RunLength(y, 0, IsSpace) == 0;
      assert y[0..] == y;
    case None =>
      assert x[0] == u[0];
  }

  /** A prefix of `u` other than `u` itself is shorter. */
  lemma ProperPrefix(a: string, u: string)
    ensures a <= u && a != u ==> |a| < |u|
  {
  }

  /** The front of a group: its multiplier, spaces, then a letter. */
  lemma GroupLayout(ds: string, gap: string, x: string, alts: seq<string>, optional: bool)
    requires |ds| > 0 && All(ds, IsDigit) && All(gap, IsSpace)
    requires |x| > 0 && IsLowerLetter(x[0])
    ensures Group(ds + (gap + x), alts, optional) == UnitTail(ValueOf(ds), x, alts, optional)
  {
    var y := gap + x;
    assert y[0] == if |gap| > 0 then gap[0] else x[0];
    RunLengthConcat(gap, x, IsSpace);
    assert y[|gap|..] == x;
    GroupAfterDigits(ds, y, alts, optional);
  }

  /** A group whose digit run is `ds`: the unit is read after the spaces that follow. */
  lemma GroupAfterDigits(ds: string, y: string, alts: seq<string>, optional: bool)
    requires |ds| > 0 && All(ds, IsDigit) && (|y| == 0 || !IsDigit(y[0]))
    ensures Group(ds + y, alts, optional) == UnitTail(ValueOf(ds), y[RunLength(y, 0, IsSpace)..], alts, optional)
  {
    RunLengthConcat(ds, y, IsDigit);
    assert (ds + y)[..|ds|] == ds;
    assert (ds + y)[|ds|..] == y;
  }

  /** Spaces, then a text that starts with neither a digit nor a space. */
  lemma GapFront(g: string, x: string)
    requires All(g, IsSpace) && |x| > 0 && !IsDigit(x[0]) && !IsSpace(x[0])
    ensures |g + x| > 0 && !IsDigit((g + x)[0])
    ensures RunLength(g + x, 0, IsSpace) == |g| && (g + x)[|g|..] == x
  {
    assert (g + x)[0] == if |g| > 0 then g[0] else x[0];
    RunLengthConcat(g, x, IsSpace);
  }

  /** What follows a written unit: its trailing spaces and the next group, if any. */
  lemma AfterUnit(after: string, rest: string)
    requires All(after, IsSpace) && (|rest| == 0 || IsDigit(rest[0]))
    ensures EndsWord(after + rest)
    ensures RunLength(after + rest, 0, IsSpace) == |after| && (after + rest)[|after|..] == rest
  {
    var w := after + rest;
    if |after| > 0 {
      assert w[0] == after[0];
    } else {
      assert w == rest;
    }
    RunLengthConcat(after, rest, IsSpace);
  }

  // ---------------------------------------------------------------------------
  // Writing a group

  /** How a present group is written: which of its unit's spellings (an index
      into `UnitSpellings`), and the white space before and after the unit. */
  datatype Spelled = Spelled(spelling: nat, before: string, after: string)

  predicate SpelledFor(k: nat, s: Spelled) {
    k < 7 && s.spelling < |UnitSpellings(k)| && All(s.before, IsSpace) && All(s.after, IsSpace)
  }

  /** The unit of group `k` as `s` spells it. */
  function UnitOf(k: nat, s: Spelled): string
    requires SpelledFor(k, s)
  {
    UnitSpellings(k)[s.spelling]
  }

  /** Group `k` with multiplier `v`, written as `s` says. */
  function GroupText(v: nat, k: nat, s: Spelled): string
    requires SpelledFor(k, s)
  {
    NatToString(v) + s.before + UnitOf(k, s) + s.after
  }

  /** A written group followed by `rest`, split after its multiplier. */
  lemma GroupTextShape(v: nat, k: nat, s: Spelled, rest: string)
    requires SpelledFor(k, s)
    ensures GroupText(v, k, s) + rest == NatToString(v) + (s.before + (UnitOf(k, s) + (s.after + rest)))
  {
  }

  lemma UnitFront(k: nat, s: Spelled, w: string)
    requires SpelledFor(k, s)
    ensures var x := UnitOf(k, s) + w;
      |x| > 0 && IsLowerLetter(x[0]) && !IsDigit(x[0]) && !IsSpace(x[0])
  {
    SpellingsAreWords(k);
    assert (UnitOf(k, s) + w)[0] == UnitOf(k, s)[0];
  }

  /** The text after the multiplier of a written group starts with a space or
      a letter, never a digit. */
  lemma AfterNumeral(v: nat, k: nat, s: Spelled, rest: string)
    requires SpelledFor(k, s)
    ensures var y := s.before + (UnitOf(k, s) + (s.after + rest));
      GroupText(v, k, s) + rest == NatToString(v) + y && |y| > 0 && !IsDigit(y[0])
  {
    GroupTextShape(v, k, s, rest);
    UnitFront(k, s, s.after + rest);
    GapFront(s.before, UnitOf(k, s) + (s.after + rest));
  }

  // ---------------------------------------------------------------------------
  // Reading one written group back

  /** The unit of a written group and the spaces after it are read up to the next group. */
  lemma UnitTailSpelled(v: nat, k: nat, s: Spelled, rest: string)
    requires SpelledFor(k, s) && (|rest| == 0 || IsDigit(rest[0]))
    ensures UnitTail(v, UnitOf(k, s) + (s.after + rest), UnitSpellings(k), UnitOptional(k)) == Some((v, rest))
  {
    var u := UnitOf(k, s);
    var w := s.after + rest;
    AfterUnit(s.after, rest);
    SpellingsAreWords(k);
    SpellingsInOrder(k);
    SpellingFound(UnitSpellings(k), s.spelling, w);
    assert (u + w)[|u|..] == w;
  }

  /** A group written in any spelling of its unit, with any spaces, is read
      back whole, up to the next group. */
  lemma GroupAtSpelled(v: nat, k: nat, s: Spelled, rest: string)
    requires SpelledFor(k, s) && (|rest| == 0 || IsDigit(rest[0]))
    ensures GroupAt(GroupText(v, k, s) + rest, k) == Some((v, rest))
  {
    var x := UnitOf(k, s) + (s.after + rest);
    GroupTextShape(v, k, s, rest);
    UnitFront(k, s, s.after + rest);
    GroupLayout(NatToString(v), s.before, x, UnitSpellings(k), UnitOptional(k));
    UnitTailSpelled(v, k, s, rest);
  }

  /** Spellings of group `k` are all different from spelling `q` of a later group `j`. */
  lemma OtherSpellings(k: nat, j: nat, q: nat)
    requires k < j < 7 && q < |UnitSpellings(j)|
    ensures forall p :: 0 <= p < |UnitSpellings(k)| ==>
      IsLowerWord(UnitSpellings(k)[p]) && UnitSpellings(k)[p] != UnitSpellings(j)[q]
  {
    LaterNotPrefix(k, j);
    SpellingsAreWords(k);
  }

  /** A group written in the unit of a later group `j` is refused by group
      `k`, or leaves a letter behind. */
  lemma GroupAtForeign(k: nat, v: nat, j: nat, s: Spelled, rest: string)
    requires k < j < 7 && SpelledFor(j, s) && (|rest| == 0 || IsDigit(rest[0]))
    ensures var r := GroupAt(GroupText(v, j, s) + rest, k);
      r.None? || (|r.value.1| > 0 && !IsDigit(r.value.1[0]))
  {
    var u := UnitOf(j, s);
    var w := s.after + rest;
    GroupTextShape(v, j, s, rest);
    UnitFront(j, s, w);
    AfterUnit(s.after, rest);
    GroupLayout(NatToString(v), s.before, u + w, UnitSpellings(k), UnitOptional(k));
    OtherSpellings(k, j, s.spelling);
    SpellingsAreWords(j);
    UnitTailOther(v, u, w, UnitSpellings(k), UnitOptional(k));
  }

  /** A later group `i` finds no spelling of its own at the front of a unit
      of an earlier group `j`. */
  lemma NoSpellingOfLater(i: nat, j: nat, q: nat, w: string)
    requires j < i < 7 && q < |UnitSpellings(j)| && EndsWord(w)
    ensures FirstSpelling(UnitSpellings(j)[q] + w, UnitSpellings(i), 0).None?
  {
    var u := UnitSpellings(j)[q];
    var alts := UnitSpellings(i);
    LaterNotPrefix(j, i);
    SpellingsAreWords(i);
    SpellingsAreWords(j);
    forall p | 0 <= p < |alts| ensures !StartsWith(u + w, alts[p]) {
      FoundIsPrefix(u, w, alts[p]);
    }
  }

  /** No group starts on a character other than a digit, so the pattern fails
      on such a text: a duration may not start with a space or a letter. */
  lemma {:induction false} StuckOnNonDigit(t: string, k: nat, asWritten: bool)
    requires k <= 7 && |t| > 0 && !IsDigit(t[0])
    ensures MatchFrom(t, k, asWritten) == None
    decreases 7 - k
  {
    if k < 7 {
      StuckOnNonDigit(t, k + 1, asWritten);
    }
  }

  /** The numeral of a number of two or more digits is the numeral of its
      tens followed by its last digit. */
  lemma NumeralLastDigit(v: nat)
    requires v >= 10
    ensures NatToString(v) == NatToString(v / 10) + NatToString(v % 10)
    ensures |NatToString(v % 10)| == 1
  {
  }

  /** The numeral of `b` followed by `x`: its digit run ends where `x` starts. */
  lemma NumeralRun(b: nat, x: string)
    requires |x| > 0 && !IsDigit(x[0])
    ensures RunLength(NatToString(b) + x, 0, IsDigit) == |NatToString(b)|
  {
    RunLengthConcat(NatToString(b), x, IsDigit);
  }

  /** What the milliseconds group hands to the microseconds group when it stops
      one digit before the end of the numeral of `b`. */
  lemma NumeralLastDigitRest(b: nat, x: string)
    requires |NatToString(b)| >= 2
    ensures var t := NatToString(b) + x;
      t[|NatToString(b)| - 1..] == NatToString(b % 10) + x
  {
    if b >= 10 {
      NumeralLastDigit(b);
      var s := NatToString(b);
      assert s[|s| - 1..] == NatToString(b % 10);
      assert (s + x)[|s| - 1..] == s[|s| - 1..] + x;
    }
  }

  /** `MatchFrom` when group `k` is read and the rest of the pattern matches. */
  lemma MatchFromTaken(t: string, k: nat, asWritten: bool, v: nat, rest: string, cs: seq<Option<nat>>)
    requires k < 7 && GroupAt(t, k) == Some((v, rest))
    requires MatchFrom(rest, k + 1, asWritten) == Some(cs)
    ensures MatchFrom(t, k, asWritten) == Some([Some(v)] + cs)
  {
  }

  /** `MatchFrom` when reading group `k` leads nowhere and no digit is handed
      back: the group is skipped. */
  lemma MatchFromSkipped(t: string, k: nat, asWritten: bool)
    requires k < 7
    requires Taken(t, k, asWritten).None?
    requires asWritten && k == 5 ==> SplitDigits(t, asWritten).None?
    ensures MatchFrom(t, k, asWritten) == Prepend(None, MatchFrom(t, k + 1, asWritten))
  {
  }

  /** `MatchFrom` when reading group `k` leads nowhere but the milliseconds
      group hands a digit back. */
  lemma MatchFromSplit(t: string, asWritten: bool)
    requires Taken(t, 5, asWritten).None?
    requires asWritten && SplitDigits(t, asWritten).Some?
    ensures MatchFrom(t, 5, asWritten) == SplitDigits(t, asWritten)
  {
  }

  lemma SplitDigitsAt(t: string, n: nat, asWritten: bool)
    requires RunLength(t, 0, IsDigit) == n && n >= 2
    ensures All(t[..n - 1], IsDigit)
    ensures SplitDigits(t, asWritten) ==
      Prepend(Some(ValueOf(t[..n - 1])), MatchFrom(t[n - 1..], 6, asWritten))
  {
  }

  lemma TakenNone(t: string, k: nat, asWritten: bool)
    requires k < 7 && GroupAt(t, k).None?
    ensures Taken(t, k, asWritten).None?
  {
  }

  lemma TakenSome(t: string, k: nat, asWritten: bool, v: nat, rest: string)
    requires k < 7 && GroupAt(t, k) == Some((v, rest))
    ensures Taken(t, k, asWritten) == Prepend(Some(v), MatchFrom(rest, k + 1, asWritten))
  {
  }

  /** Group `k` refusing a group written in the unit of a later group `j`. */
  lemma ForeignTaken(k: nat, v: nat, j: nat, s: Spelled, rest: string, asWritten: bool)
    requires k < j < 7 && SpelledFor(j, s) && (|rest| == 0 || IsDigit(rest[0]))
    ensures Taken(GroupText(v, j, s) + rest, k, asWritten).None?
  {
    var t := GroupText(v, j, s) + rest;
    GroupAtForeign(k, v, j, s, rest);
    var g := GroupAt(t, k);
    if g.Some? {
      StuckOnNonDigit(g.value.1, k + 1, asWritten);
      TakenSome(t, k, asWritten, g.value.0, g.value.1);
    } else {
      TakenNone(t, k, asWritten);
    }
  }

  // ---------------------------------------------------------------------------
  // Writing a duration, and reading it back

  /** A way of writing each of the seven groups. */
  predicate IsLayout(lay: seq<Spelled>) {
    |lay| == 7 && forall k :: 0 <= k < 7 ==> SpelledFor(k, lay[k])
  }

  /** Group `k` as `lay` writes it; nothing when absent. */
  function Piece(caps: seq<Option<nat>>, lay: seq<Spelled>, k: nat): string
    requires |caps| == 7 && IsLayout(lay) && k < 7
  {
    match caps[k]
    case None => ""
    case Some(v) => GroupText(v, k, lay[k])
  }

  function FormatFrom(caps: seq<Option<nat>>, lay: seq<Spelled>, k: nat): string
    requires |caps| == 7 && IsLayout(lay) && k <= 7
    decreases 7 - k
  {
    if k == 7 then "" else Piece(caps, lay, k) + FormatFrom(caps, lay, k + 1)
  }

  /** A duration written in decreasing unit order, each present group as its
      multiplier, white space, a spelling of its unit and white space, as
      `lay` chooses them. */
  function Format(caps: seq<Option<nat>>, lay: seq<Spelled>): string
    requires |caps| == 7 && IsLayout(lay)
  {
    FormatFrom(caps, lay, 0)
  }

  /** The captures the code as written produces for a formatted duration: with
      no milliseconds group written, a microseconds multiplier of two or more
      digits loses its last digit to the milliseconds group. */
  function AsWrittenCaptures(caps: seq<Option<nat>>): (r: seq<Option<nat>>)
    requires |caps| == 7
    ensures |r| == 7
  {
    if caps[5].None? && caps[6].Some? && caps[6].value >= 10 then
      caps[5 := Some(caps[6].value / 10)][6 := Some(caps[6].value % 10)]
    else caps
  }

  /** The first group present from `k` on, 7 when there is none. */
  function FirstPresent(caps: seq<Option<nat>>, k: nat): (j: nat)
    requires |caps| == 7 && k <= 7
    ensures k <= j <= 7
    ensures forall i :: k <= i < j ==> caps[i].None?
    ensures j < 7 ==> caps[j].Some?
    decreases 7 - k
  {
    if k == 7 || caps[k].Some? then k else FirstPresent(caps, k + 1)
  }

  lemma {:induction false} FormatSkipsAbsent(caps: seq<Option<nat>>, lay: seq<Spelled>, k: nat)
    requires |caps| == 7 && IsLayout(lay) && k <= 7
    ensures FormatFrom(caps, lay, k) == FormatFrom(caps, lay, FirstPresent(caps, k))
    decreases 7 - k
  {
    if k < 7 && caps[k].None? {
      FormatSkipsAbsent(caps, lay, k + 1);
    }
  }

  lemma FormatPresent(caps: seq<Option<nat>>, lay: seq<Spelled>, j: nat)
    requires |caps| == 7 && IsLayout(lay) && j < 7 && caps[j].Some?
    ensures FormatFrom(caps, lay, j) == GroupText(caps[j].value, j, lay[j]) + FormatFrom(caps, lay, j + 1)
  {
  }

  lemma FormatStartsWithDigit(caps: seq<Option<nat>>, lay: seq<Spelled>, k: nat)
    requires |caps| == 7 && IsLayout(lay) && k <= 7
    ensures FirstPresent(caps, k) == 7 ==> FormatFrom(caps, lay, k) == ""
    ensures FirstPresent(caps, k) < 7 ==>
      |FormatFrom(caps, lay, k)| > 0 && IsDigit(FormatFrom(caps, lay, k)[0])
  {
    FormatSkipsAbsent(caps, lay, k);
    var j := FirstPresent(caps, k);
    if j < 7 {
      FormatPresent(caps, lay, j);
      AfterNumeral(caps[j].value, j, lay[j], FormatFrom(caps, lay, j + 1));
    } else {
      assert FormatFrom(caps, lay, 7) == "";
    }
  }

  /** The captures a formatted duration is read back as, for groups `k` on. */
  function ExpectedFrom(caps: seq<Option<nat>>, k: nat, asWritten: bool): seq<Option<nat>>
    requires |caps| == 7 && k <= 7
  {
    if asWritten && k <= 5 then AsWrittenCaptures(caps)[k..] else caps[k..]
  }

  /** Where the expected captures are group `k`'s own followed by the later
      groups' (everywhere but a give-back at the milliseconds group). */
  lemma ExpectedStep(caps: seq<Option<nat>>, k: nat, asWritten: bool)
    requires |caps| == 7 && k < 7
    requires !(asWritten && k == 5 && caps[5].None? && caps[6].Some? && caps[6].value >= 10)
    ensures ExpectedFrom(caps, k, asWritten) == [caps[k]] + ExpectedFrom(caps, k + 1, asWritten)
  {
    var a := AsWrittenCaptures(caps);
    if asWritten && k <= 5 {
      assert a[k..] == [a[k]] + a[k + 1..];
      if k == 5 {
        assert a == caps;
      }
    } else {
      assert caps[k..] == [caps[k]] + caps[k + 1..];
    }
  }

  /** With group `k` absent, reading group `k` from the text of the later
      groups cannot lead to a match. */
  lemma AbsentGroupFails(caps: seq<Option<nat>>, lay: seq<Spelled>, k: nat, asWritten: bool)
    requires |caps| == 7 && IsLayout(lay) && k < 7
    ensures Taken(FormatFrom(caps, lay, k + 1), k, asWritten).None?
  {
    var j := FirstPresent(caps, k + 1);
    FormatSkipsAbsent(caps, lay, k + 1);
    if j < 7 {
      FormatPresent(caps, lay, j);
      FormatStartsWithDigit(caps, lay, j + 1);
      ForeignTaken(k, caps[j].value, j, lay[j], FormatFrom(caps, lay, j + 1), asWritten);
    } else {
      assert FormatFrom(caps, lay, 7) == "";
      TakenNone("", k, asWritten);
    }
  }

  /** A one-digit microseconds multiplier, or none, gives the milliseconds
      group no digit to hand back. */
  lemma NoSplit(caps: seq<Option<nat>>, lay: seq<Spelled>, asWritten: bool)
    requires |caps| == 7 && IsLayout(lay)
    requires caps[6].Some? ==> caps[6].value < 10
    ensures SplitDigits(FormatFrom(caps, lay, 6), asWritten) == None
  {
    if caps[6].Some? {
      var v := caps[6].value;
      FormatPresent(caps, lay, 6);
      AfterNumeral(v, 6, lay[6], FormatFrom(caps, lay, 7));
      var y := lay[6].before + (UnitOf(6, lay[6]) + (lay[6].after + FormatFrom(caps, lay, 7)));
      NumeralRun(v, y);
    } else {
      assert FormatFrom(caps, lay, 7) == "";
    }
  }

  /** The last digit of a written microseconds group, read on its own. */
  lemma LastDigitWritten(d: nat, s: Spelled, asWritten: bool)
    requires SpelledFor(6, s)
    ensures MatchFrom(GroupText(d, 6, s), 6, asWritten) == Some([Some(d)])
  {
    var t := GroupText(d, 6, s);
    assert t + "" == t;
    GroupAtSpelled(d, 6, s, "");
    assert MatchFrom("", 7, asWritten) == Some([]);
    MatchFromTaken(t, 6, asWritten, d, "", []);
    assert [Some(d)] + [] == [Some(d)];
  }

  /** Where the milliseconds group of the code as written stops in a written
      microseconds group. */
  lemma SplitLayout(hi: nat, d: nat, s: Spelled)
    requires d < 10 && SpelledFor(6, s)
    ensures var t := NatToString(hi) + GroupText(d, 6, s);
      var n := |NatToString(hi)| + 1;
      RunLength(t, 0, IsDigit) == n && t[..n - 1] == NatToString(hi) && t[n - 1..] == GroupText(d, 6, s)
  {
    var a := NatToString(hi);
    var lo := NatToString(d);
    assert |lo| == 1;
    AfterNumeral(d, 6, s, "");
    assert GroupText(d, 6, s) + "" == GroupText(d, 6, s);
    var y := s.before + (UnitOf(6, s) + (s.after + ""));
    var t := a + GroupText(d, 6, s);
    assert t == (a + lo) + y;
    assert All(a + lo, IsDigit);
    RunLengthConcat(a + lo, y, IsDigit);
  }

  /** The code as written: a microseconds multiplier of two or more digits,
      with no milliseconds group before it, loses all but its last digit to
      the milliseconds group. Here the multiplier is written as the numeral
      of `hi` followed by the digit `d`. */
  lemma SplitWritten(hi: nat, d: nat, s: Spelled, asWritten: bool)
    requires d < 10 && SpelledFor(6, s)
    ensures SplitDigits(NatToString(hi) + GroupText(d, 6, s), asWritten) == Some([Some(hi), Some(d)])
  {
    var t := NatToString(hi) + GroupText(d, 6, s);
    var n := |NatToString(hi)| + 1;
    SplitLayout(hi, d, s);
    SplitDigitsAt(t, n, asWritten);
    var m := MatchFrom(t[n - 1..], 6, asWritten);
    LastDigitWritten(d, s, asWritten);
    assert m == Some([Some(d)]);
    assert ValueOf(t[..n - 1]) == hi;
    PrependPair(hi, d, m);
  }

  lemma PrependPair(x: nat, y: nat, m: Option<seq<Option<nat>>>)
    requires m == Some([Some(y)])
    ensures Prepend(Some(x), m) == Some([Some(x), Some(y)])
  {
    assert [Some(x)] + [Some(y)] == [Some(x), Some(y)];
  }

  /** A written microseconds group of two or more digits is the numeral of
      its tens followed by the group of its last digit. */
  lemma GroupTextLastDigit(v: nat, s: Spelled)
    requires v >= 10 && SpelledFor(6, s)
    ensures GroupText(v, 6, s) == NatToString(v / 10) + GroupText(v % 10, 6, s)
  {
    NumeralLastDigit(v);
    var u := UnitOf(6, s);
    assert GroupText(v, 6, s) == NatToString(v / 10) + (NatToString(v % 10) + s.before + u + s.after);
  }

  /** The milliseconds group of the code as written takes all but the last
      digit of a microseconds multiplier of two or more digits. */
  predicate GivesBack(caps: seq<Option<nat>>, k: nat, asWritten: bool)
    requires |caps| == 7
  {
    asWritten && k == 5 && caps[5].None? && caps[6].Some? && caps[6].value >= 10
  }

  /** Reading back a formatted duration from group `k` on gives the expected
      captures: the groups written, except for the give-back of the code as
      written. */
  lemma {:induction false} MatchFormatted(caps: seq<Option<nat>>, lay: seq<Spelled>, k: nat, asWritten: bool)
    requires |caps| == 7 && IsLayout(lay) && k <= 7
    ensures MatchFrom(FormatFrom(caps, lay, k), k, asWritten) == Some(ExpectedFrom(caps, k, asWritten))
    decreases 7 - k, 1
  {
    if k == 7 {
      StepEnd(caps, lay, asWritten);
    } else if GivesBack(caps, k, asWritten) {
      StepGiveBack(caps, lay);
    } else {
      MatchFormattedStep(caps, lay, k, asWritten);
    }
  }

  /** A group other than the give-back: the later groups are read back, then
      this one is read or skipped. */
  lemma {:induction false} MatchFormattedStep(caps: seq<Option<nat>>, lay: seq<Spelled>, k: nat, asWritten: bool)
    requires |caps| == 7 && IsLayout(lay) && k < 7 && !GivesBack(caps, k, asWritten)
    ensures MatchFrom(FormatFrom(caps, lay, k), k, asWritten) == Some(ExpectedFrom(caps, k, asWritten))
    decreases 7 - k, 0
  {
    MatchFormatted(caps, lay, k + 1, asWritten);
    if caps[k].Some? {
      StepPresent(caps, lay, k, asWritten);
    } else {
      StepAbsent(caps, lay, k, asWritten);
    }
  }

  /** Nothing is left to read once every group has been read. */
  lemma StepEnd(caps: seq<Option<nat>>, lay: seq<Spelled>, asWritten: bool)
    requires |caps| == 7 && IsLayout(lay)
    ensures MatchFrom(FormatFrom(caps, lay, 7), 7, asWritten) == Some(ExpectedFrom(caps, 7, asWritten))
  {
    assert FormatFrom(caps, lay, 7) == "";
    assert ExpectedFrom(caps, 7, asWritten) == [];
  }

  /** A group that is written is read back, then the later groups. */
  lemma StepPresent(caps: seq<Option<nat>>, lay: seq<Spelled>, k: nat, asWritten: bool)
    requires |caps| == 7 && IsLayout(lay) && k < 7 && caps[k].Some?
    requires MatchFrom(FormatFrom(caps, lay, k + 1), k + 1, asWritten) ==
      Some(ExpectedFrom(caps, k + 1, asWritten))
    ensures MatchFrom(FormatFrom(caps, lay, k), k, asWritten) == Some(ExpectedFrom(caps, k, asWritten))
  {
    var v := caps[k].value;
    var next := FormatFrom(caps, lay, k + 1);
    FormatStartsWithDigit(caps, lay, k + 1);
    FormatPresent(caps, lay, k);
    GroupAtSpelled(v, k, lay[k], next);
    MatchFromTaken(FormatFrom(caps, lay, k), k, asWritten, v, next, ExpectedFrom(caps, k + 1, asWritten));
    ExpectedStep(caps, k, asWritten);
  }

  /** A group that is not written is skipped. */
  lemma StepAbsent(caps: seq<Option<nat>>, lay: seq<Spelled>, k: nat, asWritten: bool)
    requires |caps| == 7 && IsLayout(lay) && k < 7 && caps[k].None?
    requires !GivesBack(caps, k, asWritten)
    requires MatchFrom(FormatFrom(caps, lay, k + 1), k + 1, asWritten) ==
      Some(ExpectedFrom(caps, k + 1, asWritten))
    ensures MatchFrom(FormatFrom(caps, lay, k), k, asWritten) == Some(ExpectedFrom(caps, k, asWritten))
  {
    var t := FormatFrom(caps, lay, k);
    assert t == FormatFrom(caps, lay, k + 1);
    AbsentGroupFails(caps, lay, k, asWritten);
    if asWritten && k == 5 {
      NoSplit(caps, lay, asWritten);
    }
    MatchFromSkipped(t, k, asWritten);
    ExpectedStep(caps, k, asWritten);
  }

  /** The code as written, with no milliseconds group and a microseconds
      multiplier of two or more digits. */
  lemma StepGiveBack(caps: seq<Option<nat>>, lay: seq<Spelled>)
    requires |caps| == 7 && IsLayout(lay) && GivesBack(caps, 5, true)
    ensures MatchFrom(FormatFrom(caps, lay, 5), 5, true) == Some(ExpectedFrom(caps, 5, true))
  {
    var v := caps[6].value;
    var t := FormatFrom(caps, lay, 5);
    assert t == FormatFrom(caps, lay, 6);
    AbsentGroupFails(caps, lay, 5, true);
    FormatPresent(caps, lay, 6);
    assert FormatFrom(caps, lay, 7) == "";
    assert t == GroupText(v, 6, lay[6]);
    GroupTextLastDigit(v, lay[6]);
    SplitWritten(v / 10, v % 10, lay[6], true);
    MatchFromSplit(t, true);
    GiveBackCaptures(caps);
  }

  lemma GiveBackCaptures(caps: seq<Option<nat>>)
    requires |caps| == 7 && GivesBack(caps, 5, true)
    ensures ExpectedFrom(caps, 5, true) == [Some(caps[6].value / 10), Some(caps[6].value % 10)]
  {
    var a := AsWrittenCaptures(caps);
    assert a[5..] == [a[5], a[6]];
  }

  // ---------------------------------------------------------------------------
  // What `parse_timedelta` returns

  /** The code as written reads a formatted duration back with the
      microseconds digits given back to the milliseconds group. */
  lemma ParseFormatted(caps: seq<Option<nat>>, lay: seq<Spelled>)
    requires |caps| == 7 && IsLayout(lay)
    ensures var total := Total(AsWrittenCaptures(caps));
      ParseTimedelta(Format(caps, lay)) ==
        if total / MicrosPerDay > MaxDays then Failure(Overflow) else Success(total)
  {
    MatchFormatted(caps, lay, 0, true);
    assert ExpectedFrom(caps, 0, true) == AsWrittenCaptures(caps);
  }

  /** The corrected parser reads a formatted duration back as the sum of its
      groups, or reports that it reaches `MaxDays + 1` days. */
  lemma ParseFormattedIntended(caps: seq<Option<nat>>, lay: seq<Spelled>)
    requires |caps| == 7 && IsLayout(lay)
    ensures ParseTimedeltaIntended(Format(caps, lay)) ==
      if Total(caps) / MicrosPerDay > MaxDays then Failure(Overflow) else Success(Total(caps))
  {
    MatchFormatted(caps, lay, 0, false);
    assert ExpectedFrom(caps, 0, false) == caps;
  }

  /** The duration as the sum of the seven groups' contributions. */
  lemma TotalSum(caps: seq<Option<nat>>)
    requires |caps| == 7
    ensures Total(caps) == Contribution(caps, 0) + Contribution(caps, 1) + Contribution(caps, 2) +
      Contribution(caps, 3) + Contribution(caps, 4) + Contribution(caps, 5) + Contribution(caps, 6)
  {
    assert TotalFrom(caps, 7) == 0;
    assert TotalFrom(caps, 6) == Contribution(caps, 6);
    assert TotalFrom(caps, 5) == Contribution(caps, 5) + TotalFrom(caps, 6);
    assert TotalFrom(caps, 4) == Contribution(caps, 4) + TotalFrom(caps, 5);
    assert TotalFrom(caps, 3) == Contribution(caps, 3) + TotalFrom(caps, 4);
    assert TotalFrom(caps, 2) == Contribution(caps, 2) + TotalFrom(caps, 3);
    assert TotalFrom(caps, 1) == Contribution(caps, 1) + TotalFrom(caps, 2);
  }

  /** What the give-back costs: the code as written reads 990 microseconds
      more for every ten microseconds of the multiplier. */
  lemma GiveBackTotal(caps: seq<Option<nat>>)
    requires |caps| == 7 && GivesBack(caps, 5, true)
    ensures Total(AsWrittenCaptures(caps)) == Total(caps) + 990 * (caps[6].value / 10)
  {
    var a := AsWrittenCaptures(caps);
    var v := caps[6].value;
    TotalSum(caps);
    TotalSum(a);
    forall k | 0 <= k < 5 ensures Contribution(a, k) == Contribution(caps, k) {
      assert a[k] == caps[k];
    }
    assert Contribution(a, 5) == (v / 10) * 1000;
    assert Contribution(a, 6) == v % 10;
    assert Contribution(caps, 5) == 0;
    assert Contribution(caps, 6) == v;
  }

  /** The durations that differ in the two readings are exactly those with a
      microseconds multiplier of two or more digits and no milliseconds group. */
  lemma ReadingsDifferIffGiveBack(caps: seq<Option<nat>>)
    requires |caps| == 7
    ensures AsWrittenCaptures(caps) != caps <==> GivesBack(caps, 5, true)
    ensures Total(AsWrittenCaptures(caps)) != Total(caps) <==> GivesBack(caps, 5, true)
  {
    if GivesBack(caps, 5, true) {
      GiveBackTotal(caps);
      assert AsWrittenCaptures(caps)[5] != caps[5];
    }
  }

  // Example support: the literal texts the examples below are made of.

  lemma Numeral12()
    ensures NatToString(12) == "12"
  {
    assert NatToString(1) == "1";
    assert NatToString(12) == NatToString(1) + [DigitChar(2)];
  }

  /** Every group in its first spelling, with no white space. */
  lemma TightLayout(lay: seq<Spelled>)
    requires lay == seq(7, _ => Spelled(0, "", ""))
    ensures IsLayout(lay)
  {
    forall k | 0 <= k < 7 ensures SpelledFor(k, lay[k]) {
      assert lay[k] == Spelled(0, "", "");
    }
  }

  /** `"12us"`: the code as written reads 1002 microseconds (1 ms and 2 us),
      the corrected parser 12. */
  lemma GiveBackExample()
    ensures ParseTimedelta("12us") == Success(1002)
    ensures ParseTimedeltaIntended("12us") == Success(12)
  {
    var caps: seq<Option<nat>> := [None, None, None, None, None, None, Some(12)];
    var lay := seq(7, _ => Spelled(0, "", ""));
    TightLayout(lay);
    assert FirstPresent(caps, 6) == 6;
    assert FirstPresent(caps, 0) == 6;
    FormatSkipsAbsent(caps, lay, 0);
    FormatPresent(caps, lay, 6);
    Numeral12();
    assert FormatFrom(caps, lay, 7) == "";
    assert UnitOf(6, lay[6]) == "us";
    assert Format(caps, lay) == "12us";
    TotalSum(caps);
    assert Total(caps) == 12;
    GiveBackTotal(caps);
    ParseFormatted(caps, lay);
    ParseFormattedIntended(caps, lay);
  }

  /** The example of the docstring: `"1w2h3s4us"` is one week, two hours,
      three seconds and four microseconds, in both parsers. */
  lemma DocstringExample()
    ensures ParseTimedelta("1w2h3s4us") == Success(612003000004)
    ensures ParseTimedeltaIntended("1w2h3s4us") == Success(612003000004)
  {
    var caps: seq<Option<nat>> := [Some(1), None, Some(2), None, Some(3), None, Some(4)];
    var lay := [Spelled(2, "", ""), Spelled(0, "", ""), Spelled(3, "", ""), Spelled(0, "", ""),
                Spelled(4, "", ""), Spelled(0, "", ""), Spelled(0, "", "")];
    DocstringText(caps, lay);
    DocstringTotal(caps);
    ParseFormatted(caps, lay);
    ParseFormattedIntended(caps, lay);
  }

  lemma DocstringText(caps: seq<Option<nat>>, lay: seq<Spelled>)
    requires caps == [Some(1), None, Some(2), None, Some(3), None, Some(4)]
    requires lay == [Spelled(2, "", ""), Spelled(0, "", ""), Spelled(3, "", ""), Spelled(0, "", ""),
                     Spelled(4, "", ""), Spelled(0, "", ""), Spelled(0, "", "")]
    ensures IsLayout(lay) && Format(caps, lay) == "1w2h3s4us"
  {
    DocstringLayout(lay);
    FormatPresent(caps, lay, 0);
    FormatSkipsAbsent(caps, lay, 1);
    DocstringTail(caps, lay);
    assert GroupText(1, 0, lay[0]) == "1w";
  }

  lemma DocstringLayout(lay: seq<Spelled>)
    requires lay == [Spelled(2, "", ""), Spelled(0, "", ""), Spelled(3, "", ""), Spelled(0, "", ""),
                     Spelled(4, "", ""), Spelled(0, "", ""), Spelled(0, "", "")]
    ensures IsLayout(lay)
  {
    forall k | 0 <= k < 7 ensures SpelledFor(k, lay[k]) { }
  }

  lemma DocstringTail(caps: seq<Option<nat>>, lay: seq<Spelled>)
    requires caps == [Some(1), None, Some(2), None, Some(3), None, Some(4)]
    requires lay == [Spelled(2, "", ""), Spelled(0, "", ""), Spelled(3, "", ""), Spelled(0, "", ""),
                     Spelled(4, "", ""), Spelled(0, "", ""), Spelled(0, "", "")]
    requires IsLayout(lay)
    ensures FormatFrom(caps, lay, 2) == "2h3s4us"
  {
    FormatPresent(caps, lay, 2);
    FormatSkipsAbsent(caps, lay, 3);
    DocstringMiddle(caps, lay);
    assert GroupText(2, 2, lay[2]) == "2h";
  }

  lemma DocstringMiddle(caps: seq<Option<nat>>, lay: seq<Spelled>)
    requires caps == [Some(1), None, Some(2), None, Some(3), None, Some(4)]
    requires lay == [Spelled(2, "", ""), Spelled(0, "", ""), Spelled(3, "", ""), Spelled(0, "", ""),
                     Spelled(4, "", ""), Spelled(0, "", ""), Spelled(0, "", "")]
    requires IsLayout(lay)
    ensures FormatFrom(caps, lay, 4) == "3s4us"
  {
    FormatPresent(caps, lay, 4);
    FormatSkipsAbsent(caps, lay, 5);
    DocstringLast(caps, lay);
    assert GroupText(3, 4, lay[4]) == "3s";
  }

  lemma DocstringLast(caps: seq<Option<nat>>, lay: seq<Spelled>)
    requires caps == [Some(1), None, Some(2), None, Some(3), None, Some(4)]
    requires lay == [Spelled(2, "", ""), Spelled(0, "", ""), Spelled(3, "", ""), Spelled(0, "", ""),
                     Spelled(4, "", ""), Spelled(0, "", ""), Spelled(0, "", "")]
    requires IsLayout(lay)
    ensures FormatFrom(caps, lay, 6) == "4us"
  {
    FormatPresent(caps, lay, 6);
    assert FormatFrom(caps, lay, 7) == "";
    assert GroupText(4, 6, lay[6]) == "4us";
  }

  lemma DocstringTotal(caps: seq<Option<nat>>)
    requires caps == [Some(1), None, Some(2), None, Some(3), None, Some(4)]
    ensures AsWrittenCaptures(caps) == caps && Total(caps) == 612003000004
  {
    TotalSum(caps);
  }

  /** The empty text is the zero duration. */
  lemma EmptyIsZero()
    ensures ParseTimedelta("") == Success(0)
    ensures ParseTimedeltaIntended("") == Success(0)
  {
    var caps: seq<Option<nat>> := [None, None, None, None, None, None, None];
    var lay := seq(7, _ => Spelled(0, "", ""));
    TightLayout(lay);
    assert FirstPresent(caps, 0) == 7;
    FormatSkipsAbsent(caps, lay, 0);
    assert FormatFrom(caps, lay, 7) == "";
    TotalSum(caps);
    ParseFormatted(caps, lay);
    ParseFormattedIntended(caps, lay);
  }

  /** A text that does not start with a digit is refused, the empty text
      excepted: the pattern is anchored and every group starts with a digit. */
  lemma NonDigitStartRejected(text: string)
    requires |text| > 0 && !IsDigit(text[0])
    ensures ParseTimedelta(text) == Failure(BadFormat)
    ensures ParseTimedeltaIntended(text) == Failure(BadFormat)
  {
    StuckOnNonDigit(text, 0, true);
    StuckOnNonDigit(text, 0, false);
  }

  // ---------------------------------------------------------------------------
  // What an accepted text is made of

  /** One group as a text may write it: the multiplier's digits, leading zeros
      allowed, the white space after them, the unit in any case, and the white
      space after the unit. */
  datatype Written = Written(unit: nat, digits: string, gap: string, spelled: string, trail: string)

  /** `u` is one of the spellings in `alts` in any case, or nothing at all
      when the unit is optional. */
  predicate SpellsOne(u: string, alts: seq<string>, optional: bool) {
    || (u == "" && optional)
    || exists i :: 0 <= i < |alts| && |u| == |alts[i]| && StartsWith(u, alts[i])
  }

  /** A group as the pattern allows it: a digit run, spaces, a spelling of
      its unit (or nothing, for milliseconds and microseconds) and spaces. */
  predicate IsGroup(w: Written) {
    && w.unit < 7
    && |w.digits| > 0 && All(w.digits, IsDigit)
    && All(w.gap, IsSpace) && All(w.trail, IsSpace)
    && SpellsOne(w.spelled, UnitSpellings(w.unit), UnitOptional(w.unit))
  }

  function GroupString(w: Written): string {
    w.digits + (w.gap + (w.spelled + w.trail))
  }

  /** Groups of unit `k` or smaller, each unit at most once, larger units first. */
  predicate InOrder(ws: seq<Written>, k: nat) {
    && (forall i :: 0 <= i < |ws| ==> IsGroup(ws[i]) && k <= ws[i].unit)
    && (forall i, j :: 0 <= i < j < |ws| ==> ws[i].unit < ws[j].unit)
  }

  function WrittenText(ws: seq<Written>): string {
    if |ws| == 0 then "" else GroupString(ws[0]) + WrittenText(ws[1..])
  }

  /** The duration the written groups stand for: each multiplier's value
      times its unit. */
  function WrittenTotal(ws: seq<Written>): nat
    requires forall i :: 0 <= i < |ws| ==> IsGroup(ws[i])
  {
    if |ws| == 0 then 0
    else
      assert IsGroup(ws[0]);
      assert forall i :: 0 <= i < |ws[1..]| ==> ws[1..][i] == ws[i + 1];
      ValueOf(ws[0].digits) * UnitMicros(ws[0].unit) + WrittenTotal(ws[1..])
  }

  lemma InOrderTail(ws: seq<Written>, k: nat)
    requires |ws| > 0 && InOrder(ws, k)
    ensures InOrder(ws[1..], ws[0].unit + 1)
  {
    forall i | 0 <= i < |ws[1..]| ensures ws[0].unit < ws[1..][i].unit {
      assert ws[1..][i] == ws[i + 1];
    }
  }

  /** The captures of groups `k` to 6 for groups written in order: each
      written multiplier's value at its unit, nothing elsewhere. */
  function CapturesOf(ws: seq<Written>, k: nat): (r: seq<Option<nat>>)
    requires k <= 7 && InOrder(ws, k)
    ensures |r| == 7 - k
    decreases 7 - k
  {
    if k == 7 then []
    else if |ws| > 0 && ws[0].unit == k then
      InOrderTail(ws, k);
      [Some(ValueOf(ws[0].digits))] + CapturesOf(ws[1..], k + 1)
    else
      assert InOrder(ws, k + 1) by {
        if |ws| > 0 {
          forall i | 0 < i < |ws| ensures ws[0].unit < ws[i].unit { }
        }
      }
      [None] + CapturesOf(ws, k + 1)
  }

  /** `ws` is a reading of `t` from group `k` on whose captures are `caps`. */
  predicate Reads(ws: seq<Written>, k: nat, t: string, caps: seq<Option<nat>>) {
    k <= 7 && InOrder(ws, k) && WrittenText(ws) == t && CapturesOf(ws, k) == caps
  }

  /** `t` is groups of units `k` and smaller, written in decreasing order,
      whose multipliers are `caps`. */
  ghost predicate Readable(t: string, k: nat, caps: seq<Option<nat>>) {
    exists ws :: Reads(ws, k, t, caps)
  }

  /** The unit and trailing spaces `UnitTail` reads from the front of `x`. */
  lemma UnitTailWritten(v: nat, x: string, alts: seq<string>, optional: bool) returns (u: string, tr: string)
    requires UnitTail(v, x, alts, optional).Some?
    ensures SpellsOne(u, alts, optional) && All(tr, IsSpace)
    ensures x == u + (tr + UnitTail(v, x, alts, optional).value.1)
  {
    var rest := UnitTail(v, x, alts, optional).value.1;
    match FirstSpelling(x, alts, 0)
    case Some(i) =>
      u := x[..|alts[i]|];
      var w := x[|alts[i]|..];
      var n := RunLength(w, 0, IsSpace);
      tr := w[..n];
      assert rest == w[n..];
      assert w == tr + rest;
      assert x == u + w;
      assert StartsWith(u, alts[i]);
    case None =>
      u, tr := "", "";
      assert rest == x;
  }

  /** The digits, spaces, unit and spaces `Group` reads from the front of `t`. */
  lemma GroupWritten(t: string, alts: seq<string>, optional: bool) returns (ds: string, gap: string, u: string, tr: string)
    requires Group(t, alts, optional).Some?
    ensures |ds| > 0 && All(ds, IsDigit) && ValueOf(ds) == Group(t, alts, optional).value.0
    ensures All(gap, IsSpace) && SpellsOne(u, alts, optional) && All(tr, IsSpace)
    ensures t == ds + (gap + (u + tr)) + Group(t, alts, optional).value.1
  {
    var x;
    ds, gap, x := GroupUnfold(t, alts, optional);
    u, tr := UnitTailWritten(ValueOf(ds), x, alts, optional);
    Rejoin(ds, gap, u, tr, Group(t, alts, optional).value.1);
  }

  /** `Group` reads a digit run, spaces, and the unit from what follows. */
  lemma GroupUnfold(t: string, alts: seq<string>, optional: bool) returns (ds: string, gap: string, x: string)
    requires Group(t, alts, optional).Some?
    ensures |ds| > 0 && All(ds, IsDigit) && All(gap, IsSpace) && t == ds + (gap + x)
    ensures UnitTail(ValueOf(ds), x, alts, optional) == Group(t, alts, optional)
  {
    var n := RunLength(t, 0, IsDigit);
    ds := t[..n];
    var after := t[n..];
    var sp := RunLength(after, 0, IsSpace);
    gap := after[..sp];
    x := after[sp..];
    GroupBody(t, alts, optional);
    Unsplit(t, n, sp);
  }

  lemma GroupBody(t: string, alts: seq<string>, optional: bool)
    requires Group(t, alts, optional).Some?
    ensures var n := RunLength(t, 0, IsDigit); var after := t[n..];
      && n > 0 && All(t[..n], IsDigit)
      && UnitTail(ValueOf(t[..n]), after[RunLength(after, 0, IsSpace)..], alts, optional) == Group(t, alts, optional)
  {
  }

  lemma Unsplit(t: string, n: nat, sp: nat)
    requires n + sp <= |t|
    ensures t == t[..n] + (t[n..][..sp] + t[n..][sp..])
  {
    assert t[n..] == t[n..][..sp] + t[n..][sp..];
  }

  lemma Rejoin(ds: string, gap: string, u: string, tr: string, rest: string)
    ensures ds + (gap + (u + (tr + rest))) == ds + (gap + (u + tr)) + rest
  {
  }

  /** What group `k` reads from the front of `t` is a written group of unit `k`. */
  lemma GroupIsWritten(t: string, k: nat) returns (w: Written)
    requires k < 7 && GroupAt(t, k).Some?
    ensures IsGroup(w) && w.unit == k
    ensures ValueOf(w.digits) == GroupAt(t, k).value.0
    ensures t == GroupString(w) + GroupAt(t, k).value.1
  {
    var ds, gap, u, tr := GroupWritten(t, UnitSpellings(k), UnitOptional(k));
    w := Written(k, ds, gap, u, tr);
  }

  /** A written group of unit `k` in front of a reading from `k + 1` on. */
  lemma ReadsCons(w: Written, ws: seq<Written>, k: nat, rest: string, caps: seq<Option<nat>>)
    requires IsGroup(w) && w.unit == k && Reads(ws, k + 1, rest, caps)
    ensures Reads([w] + ws, k, GroupString(w) + rest, [Some(ValueOf(w.digits))] + caps)
  {
    var vs := [w] + ws;
    assert vs[1..] == ws;
    forall i, j | 0 <= i < j < |vs| ensures vs[i].unit < vs[j].unit {
      if i > 0 { assert vs[i] == ws[i - 1]; }
      assert vs[j] == ws[j - 1];
    }
  }

  /** A reading from `k + 1` on is a reading from `k` on with group `k` absent. */
  lemma ReadsSkip(ws: seq<Written>, k: nat, t: string, caps: seq<Option<nat>>)
    requires k < 7 && Reads(ws, k + 1, t, caps)
    ensures Reads(ws, k, t, [None] + caps)
  {
  }

  /** A milliseconds multiplier written bare, in front of a reading of the
      microseconds group. */
  lemma ReadsBare(t: string, m: nat, ws: seq<Written>, caps: seq<Option<nat>>) returns (vs: seq<Written>)
    requires 0 < m <= |t| && All(t[..m], IsDigit) && Reads(ws, 6, t[m..], caps)
    ensures Reads(vs, 5, t, [Some(ValueOf(t[..m]))] + caps)
  {
    var w := BareGroup(t[..m]);
    assert t == t[..m] + t[m..];
    ReadsCons(w, ws, 5, t[m..], caps);
    vs := [w] + ws;
  }

  /** The milliseconds group read without its last digit: its captures are
      that shorter multiplier and the captures read from that digit on. */
  lemma SplitCaptures(t: string, asWritten: bool, n: nat)
    requires Taken(t, 5, asWritten).None? && asWritten && SplitDigits(t, asWritten).Some?
    requires n == RunLength(t, 0, IsDigit) && n >= 2
    ensures All(t[..n - 1], IsDigit) && MatchFrom(t[n - 1..], 6, asWritten).Some?
    ensures MatchFrom(t, 5, asWritten) == Some([Some(ValueOf(t[..n - 1]))] + MatchFrom(t[n - 1..], 6, asWritten).value)
  {
    MatchFromSplit(t, asWritten);
    SplitDigitsAt(t, n, asWritten);
  }

  /** A milliseconds multiplier written without a unit or spaces. */
  lemma BareGroup(ds: string) returns (w: Written)
    requires |ds| > 0 && All(ds, IsDigit)
    ensures IsGroup(w) && w.unit == 5 && w.digits == ds && GroupString(w) == ds
  {
    w := Written(5, ds, "", "", "");
    assert GroupString(w) == ds + ("" + ("" + ""));
  }

  /** Group `k` skipped, then a reading from `k + 1` on. */
  lemma StepSkipped(t: string, k: nat, asWritten: bool, ws: seq<Written>)
    requires k < 7 && Taken(t, k, asWritten).None?
    requires asWritten && k == 5 ==> SplitDigits(t, asWritten).None?
    requires MatchFrom(t, k + 1, asWritten).Some?
    requires Reads(ws, k + 1, t, MatchFrom(t, k + 1, asWritten).value)
    ensures Reads(ws, k, t, MatchFrom(t, k, asWritten).value)
  {
    MatchFromSkipped(t, k, asWritten);
    ReadsSkip(ws, k, t, MatchFrom(t, k + 1, asWritten).value);
  }

  /** Whatever the pattern matches from group `k` on is groups of units `k`
      and smaller written in decreasing order, and the captures are their
      multipliers. */
  lemma {:induction false} MatchedIsWritten(t: string, k: nat, asWritten: bool)
    requires k <= 7 && MatchFrom(t, k, asWritten).Some?
    ensures Readable(t, k, MatchFrom(t, k, asWritten).value)
    decreases 7 - k, 1
  {
    if k == 7 {
      assert Reads([], 7, t, MatchFrom(t, k, asWritten).value);
    } else if Taken(t, k, asWritten).Some? {
      var (v, rest) := GroupAt(t, k).value;
      MatchFromTaken(t, k, asWritten, v, rest, MatchFrom(rest, k + 1, asWritten).value);
      TakenIsWritten(t, k, asWritten, v, rest);
    } else if asWritten && k == 5 && SplitDigits(t, asWritten).Some? {
      SplitIsWritten(t, asWritten);
    } else {
      SkippedIsWritten(t, k, asWritten);
    }
  }

  lemma {:induction false} TakenIsWritten(t: string, k: nat, asWritten: bool, v: nat, rest: string)
    requires k < 7 && GroupAt(t, k) == Some((v, rest)) && MatchFrom(rest, k + 1, asWritten).Some?
    ensures Readable(t, k, [Some(v)] + MatchFrom(rest, k + 1, asWritten).value)
    decreases 7 - k, 0
  {
    var caps := MatchFrom(rest, k + 1, asWritten).value;
    MatchedIsWritten(rest, k + 1, asWritten);
    var ws :| Reads(ws, k + 1, rest, caps);
    var w := GroupIsWritten(t, k);
    ReadsCons(w, ws, k, rest, caps);
    assert Reads([w] + ws, k, t, [Some(v)] + caps);
  }

  lemma {:induction false} SplitIsWritten(t: string, asWritten: bool)
    requires Taken(t, 5, asWritten).None? && asWritten && SplitDigits(t, asWritten).Some?
    ensures MatchFrom(t, 5, asWritten).Some?
    ensures Readable(t, 5, MatchFrom(t, 5, asWritten).value)
    decreases 2, 0
  {
    var n := RunLength(t, 0, IsDigit);
    SplitCaptures(t, asWritten, n);
    MatchedIsWritten(t[n - 1..], 6, asWritten);
    var caps := MatchFrom(t[n - 1..], 6, asWritten).value;
    var ws :| Reads(ws, 6, t[n - 1..], caps);
    var vs := ReadsBare(t, n - 1, ws, caps);
  }

  lemma {:induction false} SkippedIsWritten(t: string, k: nat, asWritten: bool)
    requires k < 7 && Taken(t, k, asWritten).None?
    requires asWritten && k == 5 ==> SplitDigits(t, asWritten).None?
    requires MatchFrom(t, k, asWritten).Some?
    ensures Readable(t, k, MatchFrom(t, k, asWritten).value)
    decreases 7 - k, 0
  {
    assert MatchFrom(t, k + 1, asWritten).Some?;
    MatchedIsWritten(t, k + 1, asWritten);
    var ws :| Reads(ws, k + 1, t, MatchFrom(t, k + 1, asWritten).value);
    StepSkipped(t, k, asWritten, ws);
  }

  /** The written groups from `k` on account for the whole duration their
      captures denote. */
  lemma {:induction false} CapturesTotal(caps: seq<Option<nat>>, ws: seq<Written>, k: nat)
    requires |caps| == 7 && k <= 7 && InOrder(ws, k) && caps[k..] == CapturesOf(ws, k)
    ensures TotalFrom(caps, k) == WrittenTotal(ws)
    decreases 7 - k
  {
    if k < 7 {
      assert caps[k] == caps[k..][0];
      assert caps[k + 1..] == caps[k..][1..];
      if |ws| > 0 && ws[0].unit == k {
        InOrderTail(ws, k);
        CapturesTotal(caps, ws[1..], k + 1);
      } else {
        assert InOrder(ws, k + 1) by {
          if |ws| > 0 {
            forall i | 0 < i < |ws| ensures ws[0].unit < ws[i].unit { }
          }
        }
        CapturesTotal(caps, ws, k + 1);
      }
    }
  }

  /** What `parse_timedelta` returns for a duration `total` long. */
  function DurationOf(total: nat): Result<nat, DeltaError> {
    if total >= (MaxDays + 1) * MicrosPerDay then Failure(Overflow) else Success(total)
  }

  lemma ParsedIsWritten(text: string, asWritten: bool)
    requires MatchFrom(text, 0, asWritten).Some?
    ensures exists ws ::
      InOrder(ws, 0) && WrittenText(ws) == text && FromCaptures(MatchFrom(text, 0, asWritten)) == DurationOf(WrittenTotal(ws))
  {
    var caps := MatchFrom(text, 0, asWritten).value;
    MatchedIsWritten(text, 0, asWritten);
    var ws :| Reads(ws, 0, text, caps);
    assert caps[0..] == caps;
    CapturesTotal(caps, ws, 0);
  }

  /** Every text `parse_timedelta` accepts is groups written in decreasing
      unit order, each a digit run, spaces, a spelling of its unit in any case
      (or none for milliseconds and microseconds) and spaces; and what it
      returns is the total of those groups, or `OverflowError`. */
  lemma AcceptedIsWritten(text: string)
    ensures ParseTimedelta(text) != Failure(BadFormat) ==> exists ws ::
      InOrder(ws, 0) && WrittenText(ws) == text && ParseTimedelta(text) == DurationOf(WrittenTotal(ws))
    ensures ParseTimedeltaIntended(text) != Failure(BadFormat) ==> exists ws ::
      InOrder(ws, 0) && WrittenText(ws) == text && ParseTimedeltaIntended(text) == DurationOf(WrittenTotal(ws))
  {
    if ParseTimedelta(text) != Failure(BadFormat) {
      ParsedIsWritten(text, true);
    }
    if ParseTimedeltaIntended(text) != Failure(BadFormat) {
      ParsedIsWritten(text, false);
    }
  }

  // ---------------------------------------------------------------------------
  // Rejected texts: a unit no remaining group spells

  /** No group from `k` on has a spelling that begins `x`. */
  predicate NoUnitFrom(x: string, k: nat) {
    forall i :: k <= i < 7 ==> FirstSpelling(x, UnitSpellings(i), 0).None?
  }

  /** Group `k` on a numeral, spaces `g` and a text none of its spellings
      begins is refused, or reads the numeral and the spaces and leaves that
      text. */
  lemma NoUnitGroup(b: nat, g: string, x: string, k: nat)
    requires k < 7 && All(g, IsSpace) && |x| > 0 && !IsDigit(x[0]) && !IsSpace(x[0])
    requires FirstSpelling(x, UnitSpellings(k), 0).None?
    ensures var r := GroupAt(NatToString(b) + (g + x), k); r.None? || r.value.1 == x
  {
    GapFront(g, x);
    GroupAfterDigits(NatToString(b), g + x, UnitSpellings(k), UnitOptional(k));
  }

  /** Group `k` on such a text leads nowhere: the later groups cannot start on
      what it leaves. */
  lemma NoUnitTaken(b: nat, g: string, x: string, k: nat, asWritten: bool)
    requires k < 7 && All(g, IsSpace) && |x| > 0 && !IsDigit(x[0]) && !IsSpace(x[0])
    requires FirstSpelling(x, UnitSpellings(k), 0).None?
    ensures Taken(NatToString(b) + (g + x), k, asWritten).None?
  {
    var t := NatToString(b) + (g + x);
    NoUnitGroup(b, g, x, k);
    var r := GroupAt(t, k);
    if r.Some? {
      StuckOnNonDigit(x, k + 1, asWritten);
      TakenSome(t, k, asWritten, r.value.0, x);
    } else {
      TakenNone(t, k, asWritten);
    }
  }

  /** A numeral, spaces, and a text that no group from `k` on can take as its
      unit fail the rest of the pattern, with or without the digit give-back. */
  lemma {:induction false} NoUnitStuck(b: nat, g: string, x: string, k: nat, asWritten: bool)
    requires k <= 7 && All(g, IsSpace) && |x| > 0 && !IsDigit(x[0]) && !IsSpace(x[0])
    requires NoUnitFrom(x, k)
    ensures MatchFrom(NatToString(b) + (g + x), k, asWritten) == None
    decreases 7 - k
  {
    if k < 7 {
      NoUnitTaken(b, g, x, k, asWritten);
      if asWritten && k == 5 {
        NoUnitSplit(b, g, x, asWritten);
      }
      NoUnitStuck(b, g, x, k + 1, asWritten);
      MatchFromSkipped(NatToString(b) + (g + x), k, asWritten);
    }
  }

  /** The microseconds group alone on a numeral, spaces and a text it cannot
      take as its unit. */
  lemma NoUnitLast(b: nat, g: string, x: string, asWritten: bool)
    requires All(g, IsSpace) && |x| > 0 && !IsDigit(x[0]) && !IsSpace(x[0])
    requires FirstSpelling(x, UnitSpellings(6), 0).None?
    ensures MatchFrom(NatToString(b) + (g + x), 6, asWritten) == None
  {
    NoUnitTaken(b, g, x, 6, asWritten);
    MatchFromSkipped(NatToString(b) + (g + x), 6, asWritten);
  }

  /** The digit the milliseconds group hands back does not help. */
  lemma NoUnitSplit(b: nat, g: string, x: string, asWritten: bool)
    requires All(g, IsSpace) && |x| > 0 && !IsDigit(x[0]) && !IsSpace(x[0])
    requires FirstSpelling(x, UnitSpellings(6), 0).None?
    ensures SplitDigits(NatToString(b) + (g + x), asWritten).None?
  {
    var t := NatToString(b) + (g + x);
    var n := |NatToString(b)|;
    GapFront(g, x);
    NumeralRun(b, g + x);
    if n >= 2 {
      SplitDigitsAt(t, n, asWritten);
      NumeralLastDigitRest(b, g + x);
      NoUnitLast(b % 10, g, x, asWritten);
    }
  }

  /** A unit of group `j`, followed by a text that does not continue it, is
      spelled by no group from `k` on when `j` comes before `k`. */
  lemma NoLaterUnit(j: nat, q: nat, w: string, k: nat)
    requires j < k <= 7 && q < |UnitSpellings(j)| && EndsWord(w)
    ensures NoUnitFrom(UnitSpellings(j)[q] + w, k)
  {
    forall i | k <= i < 7 ensures FirstSpelling(UnitSpellings(j)[q] + w, UnitSpellings(i), 0).None? {
      NoSpellingOfLater(i, j, q, w);
    }
  }

  /** A written group of unit `j` followed by a text that does not continue
      its unit is taken by no group from `k` on when `j` comes before `k`. */
  lemma LaterGroupsRefuse(b: nat, j: nat, s: Spelled, rest: string, k: nat, asWritten: bool)
    requires j < k <= 7 && SpelledFor(j, s) && EndsWord(s.after + rest)
    ensures MatchFrom(GroupText(b, j, s) + rest, k, asWritten) == None
  {
    var w := s.after + rest;
    GroupTextShape(b, j, s, rest);
    UnitFront(j, s, w);
    NoLaterUnit(j, s.spelling, w, k);
    NoUnitStuck(b, s.before, UnitOf(j, s) + w, k, asWritten);
  }

  /** A written group followed by a text: it starts with a digit. */
  lemma GroupTextDigit(v: nat, k: nat, s: Spelled, rest: string)
    requires SpelledFor(k, s)
    ensures |GroupText(v, k, s) + rest| > 0 && IsDigit((GroupText(v, k, s) + rest)[0])
  {
    AfterNumeral(v, k, s, rest);
    assert (NatToString(v) + (s.before + (UnitOf(k, s) + (s.after + rest))))[0] == NatToString(v)[0];
  }

  /** Group `m`, written, followed by a text `R` that the groups after `m`
      cannot match: group `m` itself, reading its own unit, leads nowhere. */
  lemma RefusedAt(v: nat, m: nat, s: Spelled, R: string, asWritten: bool)
    requires SpelledFor(m, s) && |R| > 0 && IsDigit(R[0])
    requires MatchFrom(R, m + 1, asWritten) == None
    ensures MatchFrom(GroupText(v, m, s) + R, m, asWritten) == None
  {
    var t := GroupText(v, m, s) + R;
    GroupAtSpelled(v, m, s, R);
    TakenSome(t, m, asWritten, v, R);
    OwnUnitNotLater(v, m, s, R, asWritten);
    MatchFromSkipped(t, m, asWritten);
  }

  /** Skipping group `m`, or handing a digit of its multiplier back, leaves
      its unit to groups that do not spell it. */
  lemma OwnUnitNotLater(v: nat, m: nat, s: Spelled, R: string, asWritten: bool)
    requires SpelledFor(m, s) && |R| > 0 && IsDigit(R[0])
    ensures MatchFrom(GroupText(v, m, s) + R, m + 1, asWritten) == None
    ensures asWritten && m == 5 ==> SplitDigits(GroupText(v, m, s) + R, asWritten).None?
  {
    OwnUnitNotRead(v, m, s, R, asWritten);
    if asWritten && m == 5 {
      OwnUnitNotSplit(v, s, R, asWritten);
    }
  }

  lemma OwnUnitNotRead(v: nat, m: nat, s: Spelled, R: string, asWritten: bool)
    requires SpelledFor(m, s) && |R| > 0 && IsDigit(R[0])
    ensures MatchFrom(GroupText(v, m, s) + R, m + 1, asWritten) == None
  {
    var w := s.after + R;
    var x := UnitOf(m, s) + w;
    assert |x| > 0 && !IsDigit(x[0]) && !IsSpace(x[0]) && NoUnitFrom(x, m + 1) by {
      UnitFront(m, s, w);
      AfterUnit(s.after, R);
      NoLaterUnit(m, s.spelling, w, m + 1);
    }
    NoUnitStuck(v, s.before, x, m + 1, asWritten);
    GroupTextShape(v, m, s, R);
  }

  lemma OwnUnitNotSplit(v: nat, s: Spelled, R: string, asWritten: bool)
    requires SpelledFor(5, s) && |R| > 0 && IsDigit(R[0]) && asWritten
    ensures SplitDigits(GroupText(v, 5, s) + R, asWritten).None?
  {
    var w := s.after + R;
    var x := UnitOf(5, s) + w;
    GroupTextShape(v, 5, s, R);
    UnitFront(5, s, w);
    AfterUnit(s.after, R);
    NoSpellingOfLater(6, 5, s.spelling, w);
    NoUnitSplit(v, s.before, x, asWritten);
  }

  /** The milliseconds group handing back a digit of a written microseconds
      group: the microseconds group then reads that group from its last
      digit. */
  lemma RefusedSplit(v: nat, s: Spelled, R: string, asWritten: bool)
    requires SpelledFor(6, s) && |R| > 0 && IsDigit(R[0])
    ensures SplitDigits(GroupText(v, 6, s) + R, asWritten) ==
      if |NatToString(v)| < 2 then None
      else Prepend(Some(v / 10), MatchFrom(GroupText(v % 10, 6, s) + R, 6, asWritten))
  {
    var t := GroupText(v, 6, s) + R;
    var y := s.before + (UnitOf(6, s) + (s.after + R));
    var n := |NatToString(v)|;
    AfterNumeral(v, 6, s, R);
    NumeralRun(v, y);
    if n >= 2 {
      SplitDigitsAt(t, n, asWritten);
      NumeralLastDigitRest(v, y);
      AfterNumeral(v % 10, 6, s, R);
      NumeralLastDigit(v);
      assert t[..n - 1] == NatToString(v / 10);
    }
  }

  /** Group `m`, written, followed by a text `R` that the groups after `m`
      cannot match, read from group `i` on: no group up to `m` can take it
      instead. */
  lemma {:induction false} RefusedAfterGroup(v: nat, m: nat, s: Spelled, R: string, i: nat, asWritten: bool)
    requires SpelledFor(m, s) && i <= m && |R| > 0 && IsDigit(R[0])
    requires MatchFrom(R, m + 1, asWritten) == None
    ensures MatchFrom(GroupText(v, m, s) + R, i, asWritten) == None
    decreases m - i, 1
  {
    if i == m {
      RefusedAt(v, m, s, R, asWritten);
    } else {
      RefusedBeforeGroup(v, m, s, R, i, asWritten);
    }
  }

  /** A group `i` before `m`: it cannot take group `m`'s text, so it is
      skipped, and the groups after it refuse the text too. */
  lemma {:induction false} RefusedBeforeGroup(v: nat, m: nat, s: Spelled, R: string, i: nat, asWritten: bool)
    requires SpelledFor(m, s) && i < m && |R| > 0 && IsDigit(R[0])
    requires MatchFrom(R, m + 1, asWritten) == None
    ensures MatchFrom(GroupText(v, m, s) + R, i, asWritten) == None
    decreases m - i, 0
  {
    var t := GroupText(v, m, s) + R;
    ForeignTaken(i, v, m, s, R, asWritten);
    if asWritten && i == 5 {
      RefusedSplit(v, s, R, asWritten);
      RefusedAfterGroup(v % 10, m, s, R, m, asWritten);
    }
    RefusedAfterGroup(v, m, s, R, i + 1, asWritten);
    MatchFromSkipped(t, i, asWritten);
  }

  /** A formatted prefix, from group `i` on, followed by a text `T` that
      starts with a digit and that no group up to `k` can match: the whole
      is refused from any group up to `i`. */
  lemma {:induction false} RefusedAfterPrefix(caps: seq<Option<nat>>, lay: seq<Spelled>, T: string,
                                              k: nat, i: nat, h: nat, asWritten: bool)
    requires |caps| == 7 && IsLayout(lay) && h <= i <= k <= 7
    requires forall p :: k <= p < 7 ==> caps[p].None?
    requires |T| > 0 && IsDigit(T[0])
    requires forall g :: 0 <= g <= k ==> MatchFrom(T, g, asWritten) == None
    ensures MatchFrom(FormatFrom(caps, lay, i) + T, h, asWritten) == None
    decreases 7 - i
  {
    var f := FirstPresent(caps, i);
    FormatSkipsAbsent(caps, lay, i);
    if f == 7 {
      PrefixEmpty(caps, lay, T);
    } else {
      RefusedAfterPrefix(caps, lay, T, k, f + 1, f + 1, asWritten);
      PrefixStep(caps, lay, T, f, h, asWritten);
    }
  }

  lemma PrefixEmpty(caps: seq<Option<nat>>, lay: seq<Spelled>, T: string)
    requires |caps| == 7 && IsLayout(lay)
    ensures FormatFrom(caps, lay, 7) + T == T
  {
    assert FormatFrom(caps, lay, 7) == "";
  }

  /** A formatted prefix whose first group is `f`, followed by `T`. */
  lemma PrefixStep(caps: seq<Option<nat>>, lay: seq<Spelled>, T: string, f: nat, h: nat, asWritten: bool)
    requires |caps| == 7 && IsLayout(lay) && h <= f < 7 && caps[f].Some?
    requires |T| > 0 && IsDigit(T[0])
    requires MatchFrom(FormatFrom(caps, lay, f + 1) + T, f + 1, asWritten) == None
    ensures MatchFrom(FormatFrom(caps, lay, f) + T, h, asWritten) == None
  {
    PrefixSplit(caps, lay, T, f);
    RefusedAfterGroup(caps[f].value, f, lay[f], FormatFrom(caps, lay, f + 1) + T, h, asWritten);
  }

  /** A formatted prefix whose first group is `f`, followed by `T`: that group,
      then a text starting with a digit. */
  lemma PrefixSplit(caps: seq<Option<nat>>, lay: seq<Spelled>, T: string, f: nat)
    requires |caps| == 7 && IsLayout(lay) && f < 7 && caps[f].Some?
    requires |T| > 0 && IsDigit(T[0])
    ensures var R := FormatFrom(caps, lay, f + 1) + T;
      FormatFrom(caps, lay, f) + T == GroupText(caps[f].value, f, lay[f]) + R && |R| > 0 && IsDigit(R[0])
  {
    var F := FormatFrom(caps, lay, f + 1);
    FormatStartsWithDigit(caps, lay, f + 1);
    DigitFront(F, T);
    FormatPresent(caps, lay, f);
    Reassociate(GroupText(caps[f].value, f, lay[f]), F, T);
  }

  lemma DigitFront(F: string, T: string)
    requires |F| > 0 ==> IsDigit(F[0])
    requires |T| > 0 && IsDigit(T[0])
    ensures |F + T| > 0 && IsDigit((F + T)[0])
  {
    assert (F + T)[0] == if |F| == 0 then T[0] else F[0];
  }

  lemma Reassociate(a: string, b: string, c: string)
    ensures (a + b) + c == a + (b + c)
  {
  }

  /** The text of a group of unit `k` then a group of unit `j`, then `rest`. */
  lemma TwoGroupsShape(caps: seq<Option<nat>>, lay: seq<Spelled>, a: nat, k: nat, sa: Spelled,
                       b: nat, j: nat, sb: Spelled, rest: string)
    requires |caps| == 7 && IsLayout(lay) && SpelledFor(k, sa) && SpelledFor(j, sb)
    ensures Format(caps, lay) + GroupText(a, k, sa) + GroupText(b, j, sb) + rest ==
      FormatFrom(caps, lay, 0) + (GroupText(a, k, sa) + (GroupText(b, j, sb) + rest))
  {
  }

  /** Components must come in decreasing unit order, each unit at most once:
      after formatted groups of units larger than `k`, a group of unit `k`
      followed by a group of unit `j` that is larger or the same (`"2h1w"`,
      `"5h3h"`) is refused, whatever follows that does not continue the
      second unit. */
  lemma OutOfOrderRejected(caps: seq<Option<nat>>, lay: seq<Spelled>, a: nat, k: nat, sa: Spelled,
                           b: nat, j: nat, sb: Spelled, rest: string)
    requires |caps| == 7 && IsLayout(lay) && forall p :: k <= p < 7 ==> caps[p].None?
    requires j <= k < 7 && SpelledFor(k, sa) && SpelledFor(j, sb) && EndsWord(sb.after + rest)
    ensures ParseTimedelta(Format(caps, lay) + GroupText(a, k, sa) + GroupText(b, j, sb) + rest) == Failure(BadFormat)
    ensures ParseTimedeltaIntended(Format(caps, lay) + GroupText(a, k, sa) + GroupText(b, j, sb) + rest) == Failure(BadFormat)
  {
    TwoGroupsShape(caps, lay, a, k, sa, b, j, sb, rest);
    OutOfOrderFor(caps, lay, a, k, sa, b, j, sb, rest, true);
    OutOfOrderFor(caps, lay, a, k, sa, b, j, sb, rest, false);
  }

  lemma OutOfOrderFor(caps: seq<Option<nat>>, lay: seq<Spelled>, a: nat, k: nat, sa: Spelled,
                      b: nat, j: nat, sb: Spelled, rest: string, asWritten: bool)
    requires |caps| == 7 && IsLayout(lay) && forall p :: k <= p < 7 ==> caps[p].None?
    requires j <= k < 7 && SpelledFor(k, sa) && SpelledFor(j, sb) && EndsWord(sb.after + rest)
    ensures MatchFrom(FormatFrom(caps, lay, 0) + (GroupText(a, k, sa) + (GroupText(b, j, sb) + rest)), 0, asWritten) == None
  {
    var R := GroupText(b, j, sb) + rest;
    LaterGroupsRefuse(b, j, sb, rest, k + 1, asWritten);
    GroupTextDigit(b, j, sb, rest);
    RefusedUpTo(a, k, sa, R, asWritten);
    RefusedAfterPrefix(caps, lay, GroupText(a, k, sa) + R, k, 0, 0, asWritten);
  }

  /** `RefusedAfterGroup` for every group up to `m`. */
  lemma RefusedUpTo(v: nat, m: nat, s: Spelled, R: string, asWritten: bool)
    requires SpelledFor(m, s) && |R| > 0 && IsDigit(R[0])
    requires MatchFrom(R, m + 1, asWritten) == None
    ensures |GroupText(v, m, s) + R| > 0 && IsDigit((GroupText(v, m, s) + R)[0])
    ensures forall g :: 0 <= g <= m ==> MatchFrom(GroupText(v, m, s) + R, g, asWritten) == None
  {
    GroupTextDigit(v, m, s, R);
    forall g | 0 <= g <= m ensures MatchFrom(GroupText(v, m, s) + R, g, asWritten) == None {
      RefusedAfterGroup(v, m, s, R, g, asWritten);
    }
  }

  /** The letters unit spellings begin with. */
  predicate IsUnitInitial(c: char) {
    c == 'w' || c == 'd' || c == 'h' || c == 'm' || c == 's' || c == 'u'
  }

  lemma SpellingInitials(k: nat)
    requires k < 7
    ensures forall i :: 0 <= i < |UnitSpellings(k)| ==>
      |UnitSpellings(k)[i]| > 0 && IsUnitInitial(UnitSpellings(k)[i][0])
  {
  }

  /** No spelling of any unit begins with a letter other than w, d, h, m, s
      or u, whatever its case. */
  lemma UnknownLetterSpelling(x: string, k: nat)
    requires k < 7 && |x| > 0 && !IsUnitInitial(Lower(x[0]))
    ensures FirstSpelling(x, UnitSpellings(k), 0).None?
  {
    SpellingInitials(k);
  }

  /** A number followed by a unit letter the pattern does not know (`"5x"`,
      say) is refused, after any well-formed prefix and whatever follows. */
  lemma UnknownUnitRejected(caps: seq<Option<nat>>, lay: seq<Spelled>, a: nat, g: string, c: char, rest: string)
    requires |caps| == 7 && IsLayout(lay) && All(g, IsSpace)
    requires !IsDigit(c) && !IsSpace(c) && !IsUnitInitial(Lower(c))
    ensures ParseTimedelta(Format(caps, lay) + NatToString(a) + g + [c] + rest) == Failure(BadFormat)
    ensures ParseTimedeltaIntended(Format(caps, lay) + NatToString(a) + g + [c] + rest) == Failure(BadFormat)
  {
    var x := [c] + rest;
    Regrouped(Format(caps, lay), NatToString(a), g, [c], rest);
    UnknownFor(caps, lay, a, g, x, true);
    UnknownFor(caps, lay, a, g, x, false);
  }

  lemma Regrouped(f: string, n: string, g: string, c: string, rest: string)
    ensures f + n + g + c + rest == f + (n + (g + (c + rest)))
  {
  }

  lemma UnknownFor(caps: seq<Option<nat>>, lay: seq<Spelled>, a: nat, g: string, x: string, asWritten: bool)
    requires |caps| == 7 && IsLayout(lay) && All(g, IsSpace)
    requires |x| > 0 && !IsDigit(x[0]) && !IsSpace(x[0]) && !IsUnitInitial(Lower(x[0]))
    ensures MatchFrom(FormatFrom(caps, lay, 0) + (NatToString(a) + (g + x)), 0, asWritten) == None
  {
    var T := NatToString(a) + (g + x);
    forall k | 0 <= k < 7 ensures FirstSpelling(x, UnitSpellings(k), 0).None? {
      UnknownLetterSpelling(x, k);
    }
    forall h | 0 <= h <= 7 ensures MatchFrom(T, h, asWritten) == None {
      NoUnitStuck(a, g, x, h, asWritten);
    }
    assert T[0] == NatToString(a)[0];
    RefusedAfterPrefix(caps, lay, T, 7, 0, 0, asWritten);
  }

  // ---------------------------------------------------------------------------
  // Case: the pattern is compiled with `re.IGNORECASE`

  lemma LowerKeepsClasses(c: char)
    ensures IsDigit(Lower(c)) == IsDigit(c) && IsSpace(Lower(c)) == IsSpace(c)
    ensures Lower(Lower(c)) == Lower(c)
  {
  }

  lemma RunLengthLower(t: string, f: char -> bool)
    requires forall c :: f(Lower(c)) == f(c)
    ensures RunLength(LowerString(t), 0, f) == RunLength(t, 0, f)
  {
    var n := RunLength(t, 0, f);
    var l := LowerString(t);
    forall i | 0 <= i < n ensures f(l[i]) {
      assert f(Lower(t[i])) == f(t[i]);
    }
    if n < |t| {
      assert f(Lower(t[n])) == f(t[n]);
    }
    RunLengthExact(l, 0, f, n);
  }

  lemma LowerDrop(t: string, n: nat)
    requires n <= |t|
    ensures LowerString(t)[n..] == LowerString(t[n..])
  {
  }

  lemma LowerTake(t: string, n: nat)
    requires n <= |t| && All(t[..n], IsDigit)
    ensures LowerString(t)[..n] == t[..n]
  {
    forall i | 0 <= i < n ensures LowerString(t)[i] == t[i] {
      assert IsDigit(t[..n][i]);
    }
  }

  lemma StartsWithLower(x: string, lit: string)
    ensures StartsWith(LowerString(x), lit) == StartsWith(x, lit)
  {
    forall i | 0 <= i < |x| ensures Lower(LowerString(x)[i]) == Lower(x[i]) {
      LowerKeepsClasses(x[i]);
    }
  }

  lemma {:induction false} FirstSpellingLower(x: string, alts: seq<string>, from: nat)
    requires from <= |alts|
    ensures FirstSpelling(LowerString(x), alts, from) == FirstSpelling(x, alts, from)
    decreases |alts| - from
  {
    if from < |alts| {
      StartsWithLower(x, alts[from]);
      FirstSpellingLower(x, alts, from + 1);
    }
  }

  /** A reading of a group, its remaining text lower-cased. */
  function LowerRest(r: Option<(nat, string)>): Option<(nat, string)> {
    match r
    case None => None
    case Some((v, rest)) => Some((v, LowerString(rest)))
  }

  lemma UnitTailLower(v: nat, x: string, alts: seq<string>, optional: bool)
    ensures UnitTail(v, LowerString(x), alts, optional) == LowerRest(UnitTail(v, x, alts, optional))
  {
    FirstSpellingLower(x, alts, 0);
    match FirstSpelling(x, alts, 0)
    case Some(i) =>
      var w := x[|alts[i]|..];
      LowerDrop(x, |alts[i]|);
      RunLengthLower(w, IsSpace);
      LowerDrop(w, RunLength(w, 0, IsSpace));
    case None =>
  }

  lemma GroupLower(t: string, alts: seq<string>, optional: bool)
    ensures Group(LowerString(t), alts, optional) == LowerRest(Group(t, alts, optional))
  {
    var n := RunLength(t, 0, IsDigit);
    RunLengthLower(t, IsDigit);
    if n > 0 {
      LowerTake(t, n);
      LowerDrop(t, n);
      var after := t[n..];
      var sp := RunLength(after, 0, IsSpace);
      RunLengthLower(after, IsSpace);
      LowerDrop(after, sp);
      UnitTailLower(ValueOf(t[..n]), after[sp..], alts, optional);
    }
  }

  lemma {:induction false} MatchFromLower(t: string, k: nat, asWritten: bool)
    requires k <= 7
    ensures MatchFrom(LowerString(t), k, asWritten) == MatchFrom(t, k, asWritten)
    decreases 7 - k, 2
  {
    if k < 7 {
      TakenLower(t, k, asWritten);
      if asWritten && k == 5 {
        SplitDigitsLower(t, asWritten);
      }
      MatchFromLower(t, k + 1, asWritten);
    }
  }

  lemma {:induction false} TakenLower(t: string, k: nat, asWritten: bool)
    requires k < 7
    ensures Taken(LowerString(t), k, asWritten) == Taken(t, k, asWritten)
    decreases 7 - k, 1
  {
    GroupAtLower(t, k);
    match GroupAt(t, k)
    case None =>
      TakenNone(t, k, asWritten);
      TakenNone(LowerString(t), k, asWritten);
    case Some((v, rest)) =>
      MatchFromLower(rest, k + 1, asWritten);
      TakenSome(t, k, asWritten, v, rest);
      TakenSome(LowerString(t), k, asWritten, v, LowerString(rest));
  }

  lemma GroupAtLower(t: string, k: nat)
    requires k < 7
    ensures GroupAt(LowerString(t), k) == LowerRest(GroupAt(t, k))
  {
    GroupLower(t, UnitSpellings(k), UnitOptional(k));
  }



  lemma {:induction false} SplitDigitsLower(t: string, asWritten: bool)
    ensures SplitDigits(LowerString(t), asWritten) == SplitDigits(t, asWritten)
    decreases 2, 0
  {
    var n := RunLength(t, 0, IsDigit);
    RunLengthLower(t, IsDigit);
    if n >= 2 {
      assert All(t[..n - 1], IsDigit);
      LowerTake(t, n - 1);
      LowerDrop(t, n - 1);
      MatchFromLower(t[n - 1..], 6, asWritten);
      SplitDigitsLong(t, asWritten);
      SplitDigitsLong(LowerString(t), asWritten);
    } else {
      SplitDigitsShort(t, asWritten);
      SplitDigitsShort(LowerString(t), asWritten);
    }
  }

  lemma SplitDigitsShort(t: string, asWritten: bool)
    requires RunLength(t, 0, IsDigit) < 2
    ensures SplitDigits(t, asWritten).None?
  {
  }

  lemma SplitDigitsLong(t: string, asWritten: bool)
    requires RunLength(t, 0, IsDigit) >= 2
    ensures var n := RunLength(t, 0, IsDigit);
      All(t[..n - 1], IsDigit) &&
      SplitDigits(t, asWritten) == Prepend(Some(ValueOf(t[..n - 1])), MatchFrom(t[n - 1..], 6, asWritten))
  {
  }

  /** Both readings ignore the case of the text. */
  lemma CaseInsensitive(text: string)
    ensures ParseTimedelta(LowerString(text)) == ParseTimedelta(text)
    ensures ParseTimedeltaIntended(LowerString(text)) == ParseTimedeltaIntended(text)
  {
    MatchFromLower(text, 0, false);
    MatchFromLower(text, 0, true);
  }
}

=== FILE: wikistream.dfy ===
/** The edit-notification parser and the per-event dispatch step of the
    Wikipedia IRC streamer (`WikiStreamer.parse_message` and
    `WikiStreamer.handle_event` in wikistream.py). */
module WikiStream {
  import opened Wrappers
  import opened Text

  /** The six groups the feed's message pattern captures from a notification
      line: page title, flag, url, user, the text carrying the byte delta, and
      the edit comment. */
  datatype Groups = Groups(
    page: string, flag: string, url: string, user: string, deltaText: string, comment: string)

  /** The message pattern `RE_MESSAGE`, kept abstract: `None` when the line is
      not an edit notification. */
  type Matcher = string -> Option<Groups>

  /** What the channel registry knows about one channel: its short code and the
      table translating local namespace prefixes to namespace names. */
  datatype ChannelMeta = ChannelMeta(short: string, namespaces: map<string, string>)

  /** The channel registry, keyed by IRC channel id. */
  type Registry = map<string, ChannelMeta>

  /** One parsed edit notification, with the fields of the dictionary the
      parser returns. */
  datatype Record = Record(
    wikipedia: string,
    flag: string,
    page: string,
    url: string,
    delta: Option<int>,
    comment: string,
    user: string,
    anonymous: bool,
    namespace: string)

  /** The registry lookup of an unknown channel raises a `KeyError`. */
  datatype ParseError = UnknownChannel(channel: string)

  // ---------------------------------------------------------------------------
  // Byte delta: the first match of `[+-]\d+` in the delta text

  /** A sign followed by a digit starts at `i`: a match of `[+-]\d+` begins there. */
  predicate SignedAt(s: string, i: int) {
    0 <= i && i + 1 < |s| && (s[i] == '+' || s[i] == '-') && IsDigit(s[i + 1])
  }

  /** `i` is where a left-to-right search for `[+-]\d+` stops. */
  predicate FirstSignedAt(s: string, i: int) {
    SignedAt(s, i) && forall j :: 0 <= j < i ==> !SignedAt(s, j)
  }

  /** The integer the greedy match `[+-]\d+` starting at `i` denotes. */
  function SignedValueAt(s: string, i: int): int
    requires SignedAt(s, i)
  {
    var rest := s[i + 1..];
    var n := RunLength(rest, 0, IsDigit);
    var digits := rest[..n];
    assert All(digits, IsDigit);
    if s[i] == '-' then -(ValueOf(digits) as int) else ValueOf(digits)
  }

  /** Scan for the first sign-digit pair at or after `from`. */
  function SearchSigned(s: string, from: nat): (r: Option<nat>)
    requires from <= |s|
    ensures r.None? <==> forall j :: from <= j < |s| ==> !SignedAt(s, j)
    ensures r.Some? ==> from <= r.value && SignedAt(s, r.value)
    ensures r.Some? ==> forall j :: from <= j < r.value ==> !SignedAt(s, j)
    decreases |s| - from
  {
    if from == |s| then None
    else if SignedAt(s, from) then Some(from)
    else SearchSigned(s, from + 1)
  }

  /** The byte delta of an edit: the value of the first signed digit run of
      the delta text, or `None` when there is none (the parser then logs a
      warning and still returns a record). */
  function DeltaOf(text: string): (d: Option<int>)
    ensures d.None? <==> forall j :: 0 <= j < |text| ==> !SignedAt(text, j)
    ensures d.Some? ==> forall i :: FirstSignedAt(text, i) ==> d.value == SignedValueAt(text, i)
  {
    match SearchSigned(text, 0)
    case None => None
    case Some(i) => Some(SignedValueAt(text, i))
  }

  lemma NoSignedInPrefix(prefix: string, sign: char, ds: string, suffix: string)
    requires '+' !in prefix && '-' !in prefix
    ensures forall j :: 0 <= j < |prefix| ==> !SignedAt(prefix + [sign] + ds + suffix, j)
  {
    var s := prefix + [sign] + ds + suffix;
    forall j | 0 <= j < |prefix| ensures !SignedAt(s, j) {
      assert s[j] == prefix[j];
    }
  }

  lemma NumeralAfterPrefix(prefix: string, sign: char, ds: string, suffix: string)
    requires sign == '+' || sign == '-'
    requires |ds| > 0 && All(ds, IsDigit)
    requires |suffix| == 0 || !IsDigit(suffix[0])
    ensures var s := prefix + [sign] + ds + suffix;
      && SignedAt(s, |prefix|)
      && s[|prefix|] == sign
      && s[|prefix| + 1..] == ds + suffix
  {
    var s := prefix + [sign] + ds + suffix;
    var k := |prefix|;
    assert s[k] == sign && s[k + 1] == ds[0];
    assert s[k + 1..] == ds + suffix;
  }

  /** The value of the greedy signed match at `i` when the digits after the
      sign are `ds` and what follows them does not continue the run. */
  lemma SignedValueOfDigits(s: string, i: nat, ds: string, suffix: string)
    requires SignedAt(s, i)
    requires All(ds, IsDigit) && (|suffix| == 0 || !IsDigit(suffix[0]))
    requires s[i + 1..] == ds + suffix
    ensures SignedValueAt(s, i) == if s[i] == '-' then -(ValueOf(ds) as int) else ValueOf(ds)
  {
    RunLengthConcat(ds, suffix, IsDigit);
    assert (ds + suffix)[..|ds|] == ds;
  }

  /** A delta text made of sign-free text, a signed numeral and text not
      starting with a digit yields exactly that signed number. */
  lemma DeltaOfSignedNumeral(prefix: string, sign: char, n: nat, suffix: string)
    requires sign == '+' || sign == '-'
    requires '+' !in prefix && '-' !in prefix
    requires |suffix| == 0 || !IsDigit(suffix[0])
    ensures DeltaOf(prefix + [sign] + NatToString(n) + suffix) == Some(if sign == '-' then -(n as int) else n)
  {
    var ds := NatToString(n);
    var s := prefix + [sign] + ds + suffix;
    NoSignedInPrefix(prefix, sign, ds, suffix);
    NumeralAfterPrefix(prefix, sign, ds, suffix);
    SignedValueOfDigits(s, |prefix|, ds, suffix);
    var r := SearchSigned(s, 0);
    assert r.Some? && r.value == |prefix|;
  }

  // Example support: the literal texts the examples below are made of.

  /** The numeral `str(123)`. */
  lemma Numeral123()
    ensures NatToString(123) == "123"
  {
    assert DigitChar(1) == '1' && DigitChar(2) == '2' && DigitChar(3) == '3';
    assert NatToString(1) == "1";
    assert NatToString(12) == NatToString(1) + ['2'];
    assert NatToString(123) == NatToString(12) + ['3'];
  }

  lemma DeltaExamplePositive()
    ensures DeltaOf("(+123) ") == Some(123)
  {
    Numeral123();
    assert "(" + ['+'] + "123" + ") " == "(+123) ";
    DeltaOfSignedNumeral("(", '+', 123, ") ");
  }

  lemma DeltaExampleNegative()
    ensures DeltaOf("(-7)") == Some(-7)
  {
    assert NatToString(7) == "7";
    assert "(" + ['-'] + "7" + ")" == "(-7)";
    DeltaOfSignedNumeral("(", '-', 7, ")");
  }

  lemma DeltaExampleUnsigned()
    ensures DeltaOf("123") == None
  {
    var t := "123";
    forall j | 0 <= j < |t| ensures !SignedAt(t, j) {
      assert t[j] != '+' && t[j] != '-';
    }
  }

  // ---------------------------------------------------------------------------
  // Anonymity: the user looks like an IPv4 or IPv6 address

  /** The greedy match of `c+(sep c+)*` with exactly `groups` runs (`c*` in
      place of `c+` when `nonEmpty` is false) against the whole of `s`, where
      `c` is the character class `f`. A shorter run than the greedy one leaves
      a class character where the separator or the end is required, so the
      greedy reading is the only one that can succeed. */
  predicate MatchesRuns(s: string, f: char -> bool, sep: char, groups: nat, nonEmpty: bool)
    decreases |s|
  {
    var n := RunLength(s, 0, f);
    && groups > 0
    && (nonEmpty ==> n > 0)
    && if groups == 1 then n == |s|
       else n < |s| && s[n] == sep && MatchesRuns(s[n + 1..], f, sep, groups - 1, nonEmpty)
  }

  /** Every piece is of class `f`, and non-empty when `nonEmpty` holds. */
  predicate PiecesOfClass(parts: seq<string>, f: char -> bool, nonEmpty: bool) {
    forall i :: 0 <= i < |parts| ==> All(parts[i], f) && (nonEmpty ==> |parts[i]| > 0)
  }

  /** The structural reading: `s` is `groups` pieces of class `f` joined by `sep`. */
  predicate SplitsInto(s: string, f: char -> bool, sep: char, groups: nat, nonEmpty: bool) {
    var parts := Split(s, sep);
    |parts| == groups && PiecesOfClass(parts, f, nonEmpty)
  }

  lemma SplitsIntoWithoutSeparator(s: string, f: char -> bool, sep: char, groups: nat, nonEmpty: bool)
    requires sep !in s
    ensures SplitsInto(s, f, sep, groups, nonEmpty) <==>
      groups == 1 && All(s, f) && (nonEmpty ==> |s| > 0)
  {
    SplitHead(s, sep);
    assert Split(s, sep) == [s];
  }

  lemma SplitsIntoStep(s: string, f: char -> bool, sep: char, groups: nat, nonEmpty: bool)
    requires sep in s
    ensures var i := IndexOf(s, sep).value;
      SplitsInto(s, f, sep, groups, nonEmpty) <==>
        && groups > 1
        && All(s[..i], f) && (nonEmpty ==> i > 0)
        && SplitsInto(s[i + 1..], f, sep, groups - 1, nonEmpty)
  {
    var i := IndexOf(s, sep).value;
    SplitHead(s, sep);
    var parts := Split(s, sep);
    assert parts == [s[..i]] + Split(s[i + 1..], sep) by {
      assert parts == [parts[0]] + parts[1..];
    }
    PiecesOfClassStep(s[..i], Split(s[i + 1..], sep), f, nonEmpty);
  }

  lemma PiecesOfClassStep(head: string, ps: seq<string>, f: char -> bool, nonEmpty: bool)
    ensures PiecesOfClass([head] + ps, f, nonEmpty) <==>
      All(head, f) && (nonEmpty ==> |head| > 0) && PiecesOfClass(ps, f, nonEmpty)
  {
    var parts := [head] + ps;
    if All(head, f) && (nonEmpty ==> |head| > 0) && PiecesOfClass(ps, f, nonEmpty) {
      forall k | 0 <= k < |parts| ensures All(parts[k], f) && (nonEmpty ==> |parts[k]| > 0) {
        if k > 0 { assert parts[k] == ps[k - 1]; }
      }
    }
    if PiecesOfClass(parts, f, nonEmpty) {
      assert parts[0] == head;
      forall k | 0 <= k < |ps| ensures All(ps[k], f) && (nonEmpty ==> |ps[k]| > 0) {
        assert ps[k] == parts[k + 1];
      }
    }
  }

  /** The regular-expression reading and the structural reading agree on every
      string, provided the separator is outside the class. */
  lemma {:induction false} MatchesRunsIffSplitsInto(
    s: string, f: char -> bool, sep: char, groups: nat, nonEmpty: bool)
    requires !f(sep)
    ensures MatchesRuns(s, f, sep, groups, nonEmpty) <==> SplitsInto(s, f, sep, groups, nonEmpty)
    decreases |s|
  {
    if sep !in s {
      MatchesRunsWithoutSeparator(s, f, sep, groups, nonEmpty);
      SplitsIntoWithoutSeparator(s, f, sep, groups, nonEmpty);
    } else {
      var i := IndexOf(s, sep).value;
      MatchesRunsStep(s, f, sep, groups, nonEmpty);
      SplitsIntoStep(s, f, sep, groups, nonEmpty);
      if groups > 1 {
        MatchesRunsIffSplitsInto(s[i + 1..], f, sep, groups - 1, nonEmpty);
      }
    }
  }

  lemma MatchesRunsWithoutSeparator(s: string, f: char -> bool, sep: char, groups: nat, nonEmpty: bool)
    requires sep !in s && !f(sep)
    ensures MatchesRuns(s, f, sep, groups, nonEmpty) <==>
      groups == 1 && All(s, f) && (nonEmpty ==> |s| > 0)
  {
    var n := RunLength(s, 0, f);
    if n < |s| {
      assert !f(s[n]);
      assert s[n] != sep;
    } else {
      assert All(s, f);
    }
  }

  lemma MatchesRunsStep(s: string, f: char -> bool, sep: char, groups: nat, nonEmpty: bool)
    requires sep in s && !f(sep)
    ensures var i := IndexOf(s, sep).value;
      MatchesRuns(s, f, sep, groups, nonEmpty) <==>
        && groups > 1
        && All(s[..i], f) && (nonEmpty ==> i > 0)
        && MatchesRuns(s[i + 1..], f, sep, groups - 1, nonEmpty)
  {
    var i := IndexOf(s, sep).value;
    var n := RunLength(s, 0, f);
    assert n <= i;
    if n < i {
      assert s[..i][n] == s[n];
      assert s[n] != sep;
      assert !All(s[..i], f);
    } else {
      assert All(s[..i], f);
    }
  }

  /** `^\d+\.\d+\.\d+\.\d+$`: four digit runs joined by three dots, no range check. */
  predicate IsIPv4(user: string) {
    MatchesRuns(user, IsDigit, '.', 4, true)
  }

  /** `^([0-9a-fA-F]*:){7}[0-9a-fA-F]*$`: eight possibly empty hex runs joined
      by seven colons. */
  predicate IsIPv6(user: string) {
    MatchesRuns(user, IsHexDigit, ':', 8, false)
  }

  /** An edit is anonymous when its user is an address rather than an account name. */
  predicate IsAnonymous(user: string) {
    IsIPv4(user) || IsIPv6(user)
  }

  /** Anonymity in structural terms: the user splits on dots into four
      non-empty digit runs, or on colons into eight hex runs. */
  lemma AnonymousIffAddressShape(user: string)
    ensures IsAnonymous(user) <==>
      SplitsInto(user, IsDigit, '.', 4, true) || SplitsInto(user, IsHexDigit, ':', 8, false)
  {
    MatchesRunsIffSplitsInto(user, IsDigit, '.', 4, true);
    MatchesRunsIffSplitsInto(user, IsHexDigit, ':', 8, false);
  }

  lemma SeparatorOutsideClass(s: string, f: char -> bool, sep: char)
    requires All(s, f) && !f(sep)
    ensures sep !in s
  {
  }

  /** Pieces of class `f` joined by a separator outside the class split back
      into those pieces. */
  lemma SplitsIntoJoin(parts: seq<string>, f: char -> bool, sep: char, nonEmpty: bool)
    requires |parts| > 0 && !f(sep)
    requires forall k :: 0 <= k < |parts| ==> All(parts[k], f) && (nonEmpty ==> |parts[k]| > 0)
    ensures SplitsInto(Join(parts, sep), f, sep, |parts|, nonEmpty)
  {
    forall k | 0 <= k < |parts| ensures sep !in parts[k] {
      SeparatorOutsideClass(parts[k], f, sep);
    }
    SplitOfJoin(parts, sep);
  }

  lemma JoinQuad(a: string, b: string, c: string, d: string)
    ensures Join([a, b, c, d], '.') == a + "." + b + "." + c + "." + d
  {
    var parts := [a, b, c, d];
    assert Join(parts[3..], '.') == d;
    assert Join(parts[2..], '.') == c + "." + d;
    assert Join(parts[1..], '.') == b + "." + (c + "." + d);
    assert Join(parts, '.') == a + "." + (b + "." + (c + "." + d));
  }

  /** Any dotted quad of digit runs is anonymous, whatever the numbers. */
  lemma DottedQuadIsAnonymous(a: string, b: string, c: string, d: string)
    requires |a| > 0 && |b| > 0 && |c| > 0 && |d| > 0
    requires All(a, IsDigit) && All(b, IsDigit) && All(c, IsDigit) && All(d, IsDigit)
    ensures IsAnonymous(a + "." + b + "." + c + "." + d)
  {
    var parts := [a, b, c, d];
    JoinQuad(a, b, c, d);
    SplitsIntoJoin(parts, IsDigit, '.', true);
    AnonymousIffAddressShape(Join(parts, '.'));
  }

  /** Any eight hex runs joined by colons are anonymous, empty runs included. */
  lemma HexGroupsAreAnonymous(groups: seq<string>)
    requires |groups| == 8
    requires forall k :: 0 <= k < 8 ==> All(groups[k], IsHexDigit)
    ensures IsAnonymous(Join(groups, ':'))
  {
    SplitsIntoJoin(groups, IsHexDigit, ':', false);
    AnonymousIffAddressShape(Join(groups, ':'));
  }

  /** A user name with neither a dot nor a colon is never anonymous. */
  lemma PlainNameIsNotAnonymous(user: string)
    requires '.' !in user && ':' !in user
    ensures !IsAnonymous(user)
  {
    SplitHead(user, '.');
    SplitHead(user, ':');
    AnonymousIffAddressShape(user);
  }

  // Example support: the example users as dot-joined runs.

  lemma QuadTexts()
    ensures "192" + "." + "168" + "." + "0" + "." + "1" == "192.168.0.1"
    ensures "999" + "." + "999" + "." + "999" + "." + "999" == "999.999.999.999"
  {
  }

  lemma AnonymityExamples()
    ensures IsAnonymous("192.168.0.1")
    ensures IsAnonymous("999.999.999.999")
    ensures !IsAnonymous("Example_User")
  {
    QuadTexts();
    DottedQuadIsAnonymous("192", "168", "0", "1");
    DottedQuadIsAnonymous("999", "999", "999", "999");
    PlainNameIsNotAnonymous("Example_User");
  }

  // ---------------------------------------------------------------------------
  // Namespace resolution from the page title

  /** The second piece of a split on colons is a prefix of the text after the first colon. */
  lemma SecondPieceFollowsColon(page: string)
    ensures ':' in page ==> Split(page, ':')[1] <= page[IndexOf(page, ':').value + 1..]
  {
    if ':' in page {
      var i := IndexOf(page, ':').value;
      SplitHead(page, ':');
      SplitFirstIsPrefix(page[i + 1..], ':');
      assert Split(page, ':')[1] == Split(page, ':')[1..][0];
    }
  }

  /** The namespace of a page: the title is split on colons; when there is a
      second piece not starting with a space, the first piece is translated
      through the channel's table (kept verbatim when absent); otherwise the
      page is an article. */
  function Namespace(page: string, table: map<string, string>): (ns: string)
    ensures ':' !in page ==> ns == "article"
    ensures ':' in page ==>
      var i := IndexOf(page, ':').value;
      var prefix := page[..i];
      ns == if i + 1 < |page| && page[i + 1] == ' ' then "article"
            else if prefix in table then table[prefix] else prefix
  {
    var parts := Split(page, ':');
    SplitHead(page, ':');
    SecondPieceFollowsColon(page);
    if |page| > 0 && |parts| > 1 && !(|parts[1]| > 0 && parts[1][0] == ' ') then
      if parts[0] in table then table[parts[0]] else parts[0]
    else
      "article"
  }

  /** `prefix:rest` with `rest` not starting with a space resolves through the table. */
  lemma NamespaceOfPrefixed(prefix: string, rest: string, table: map<string, string>)
    requires ':' !in prefix
    requires |rest| == 0 || rest[0] != ' '
    ensures Namespace(prefix + ":" + rest, table) ==
      if prefix in table then table[prefix] else prefix
  {
    var page := prefix + ":" + rest;
    IndexOfJoined(prefix, ':', rest);
    assert page == prefix + [':'] + rest;
    assert page[..|prefix|] == prefix;
  }

  /** `prefix: rest`, a colon followed by a space, is an article title. */
  lemma NamespaceSpaceAfterColon(prefix: string, rest: string, table: map<string, string>)
    requires ':' !in prefix
    ensures Namespace(prefix + ": " + rest, table) == "article"
  {
    var page := prefix + ": " + rest;
    IndexOfJoined(prefix, ':', " " + rest);
    assert page == prefix + [':'] + (" " + rest);
    assert page[|prefix| + 1] == ' ';
  }

  lemma NamespaceExampleUntranslated()
    ensures Namespace("User talk:Alice", map[]) == "User talk"
  {
    NamespaceOfPrefixed("User talk", "Alice", map[]);
    assert "User talk" + ":" + "Alice" == "User talk:Alice";
  }

  lemma NamespaceExampleTranslated()
    ensures Namespace("Talk:Bob", map["Talk" := "discussion"]) == "discussion"
  {
    NamespaceOfPrefixed("Talk", "Bob", map["Talk" := "discussion"]);
    assert "Talk" + ":" + "Bob" == "Talk:Bob";
  }

  // ---------------------------------------------------------------------------
  // The parser

  /** Parse one line received on `channel`. A line the message pattern rejects
      is not a notification and gives `Success(None)`; a matching line on a
      channel the registry does not know raises (`Failure`); otherwise the
      groups are assembled into a record. */
  function ParseMessage(registry: Registry, matcher: Matcher, channel: string, msg: string)
    : (r: Result<Option<Record>, ParseError>)
    ensures matcher(msg).None? ==> r == Success(None)
    ensures matcher(msg).Some? ==> (r.Failure? <==> channel !in registry)
    ensures r.Failure? ==> r.error == UnknownChannel(channel)
    ensures matcher(msg).Some? && channel in registry ==> r.Success? && r.value.Some?
    ensures r.Success? && r.value.Some? ==>
      var g := matcher(msg).value;
      var meta := registry[channel];
      var rec := r.value.value;
      && matcher(msg).Some? && channel in registry
      && rec.page == g.page && rec.flag == g.flag && rec.url == g.url
      && rec.user == g.user && rec.comment == g.comment
      && rec.wikipedia == meta.short
      && rec.delta == DeltaOf(g.deltaText)
      && rec.anonymous == IsAnonymous(g.user)
      && rec.namespace == Namespace(g.page, meta.namespaces)
  {
    match matcher(msg)
    case None => Success(None)
    case Some(g) =>
      if channel !in registry then Failure(UnknownChannel(channel))
      else
        var meta := registry[channel];
        Success(Some(Record(
          wikipedia := meta.short,
          flag := g.flag,
          page := g.page,
          url := g.url,
          delta := DeltaOf(g.deltaText),
          comment := g.comment,
          user := g.user,
          anonymous := IsAnonymous(g.user),
          namespace := Namespace(g.page, meta.namespaces))))
  }

  // ---------------------------------------------------------------------------
  // Dispatch of IRC events

  /** A public message event: the channel it was sent to and its arguments
      (the message text first). */
  datatype Event = Event(target: string, arguments: seq<string>)

  /** The streamer's state as far as dispatch is concerned: the message counter
      and the records handed to the message handler so far, oldest first. */
  datatype StreamState = StreamState(numMessages: nat, delivered: seq<Record>)

  /** What parsing one event yields, `Success(None)` for an event without arguments. */
  function EventRecord(registry: Registry, matcher: Matcher, ev: Event): Result<Option<Record>, ParseError>
  {
    if |ev.arguments| == 0 then Success(None)
    else ParseMessage(registry, matcher, ev.target, ev.arguments[0])
  }

  /** One call of the event handler: an event with arguments whose first
      argument parses to a record bumps the counter by one and delivers the
      record; any other event leaves the state as it was; a parse that raises
      propagates. */
  function HandleEvent(registry: Registry, matcher: Matcher, st: StreamState, ev: Event)
    : (r: Result<StreamState, ParseError>)
    ensures r.Failure? <==>
      |ev.arguments| > 0 && ParseMessage(registry, matcher, ev.target, ev.arguments[0]).Failure?
    ensures r.Success? ==>
      (r.value.numMessages == st.numMessages + 1 <==>
        |ev.arguments| > 0 && ParseMessage(registry, matcher, ev.target, ev.arguments[0]) .Success?
        && ParseMessage(registry, matcher, ev.target, ev.arguments[0]).value.Some?)
    ensures r.Success? && r.value.numMessages == st.numMessages + 1 ==>
      r.value.delivered ==
        st.delivered + [ParseMessage(registry, matcher, ev.target, ev.arguments[0]).value.value]
    ensures r.Success? && r.value.numMessages != st.numMessages + 1 ==> r.value == st
  {
    match EventRecord(registry, matcher, ev)
    case Failure(e) => Failure(e)
    case Success(None) => Success(st)
    case Success(Some(rec)) => Success(StreamState(st.numMessages + 1, st.delivered + [rec]))
  }

  /** The handler applied to each event in arrival order, stopping at the first raise. */
  function Run(registry: Registry, matcher: Matcher, st: StreamState, events: seq<Event>)
    : Result<StreamState, ParseError>
    decreases |events|
  {
    if |events| == 0 then Success(st)
    else
      match HandleEvent(registry, matcher, st, events[0])
      case Failure(e) => Failure(e)
      case Success(next) => Run(registry, matcher, next, events[1..])
  }

  /** Every event parses without raising. */
  predicate AllChannelsKnown(registry: Registry, matcher: Matcher, events: seq<Event>) {
    forall i :: 0 <= i < |events| ==> EventRecord(registry, matcher, events[i]).Success?
  }

  /** The records the events carry, in arrival order, skipping events that carry none. */
  function Recognized(registry: Registry, matcher: Matcher, events: seq<Event>): seq<Record>
    decreases |events|
  {
    if |events| == 0 then []
    else
      var rest := Recognized(registry, matcher, events[1..]);
      match EventRecord(registry, matcher, events[0])
      case Success(Some(rec)) => [rec] + rest
      case _ => rest
  }

  /** The handler's effect in terms of the event's parse result. */
  lemma HandleEventByRecord(registry: Registry, matcher: Matcher, st: StreamState, ev: Event)
    ensures HandleEvent(registry, matcher, st, ev) ==
      match EventRecord(registry, matcher, ev)
      case Failure(e) => Failure(e)
      case Success(None) => Success(st)
      case Success(Some(rec)) => Success(StreamState(st.numMessages + 1, st.delivered + [rec]))
  {
  }

  lemma AllChannelsKnownStep(registry: Registry, matcher: Matcher, events: seq<Event>)
    requires |events| > 0
    ensures AllChannelsKnown(registry, matcher, events) <==>
      EventRecord(registry, matcher, events[0]).Success? &&
      AllChannelsKnown(registry, matcher, events[1..])
  {
    var tail := events[1..];
    if EventRecord(registry, matcher, events[0]).Success? && AllChannelsKnown(registry, matcher, tail) {
      forall i | 0 <= i < |events| ensures EventRecord(registry, matcher, events[i]).Success? {
        if i > 0 { assert events[i] == tail[i - 1]; }
      }
    }
    if AllChannelsKnown(registry, matcher, events) {
      forall i | 0 <= i < |tail| ensures EventRecord(registry, matcher, tail[i]).Success? {
        assert tail[i] == events[i + 1];
      }
    }
  }

  /** Over a sequence of events the handler raises iff some event's parse does. */
  lemma {:induction false} RunFailsIffUnknownChannel(
    registry: Registry, matcher: Matcher, st: StreamState, events: seq<Event>)
    ensures Run(registry, matcher, st, events).Success? <==> AllChannelsKnown(registry, matcher, events)
    decreases |events|
  {
    if |events| > 0 {
      AllChannelsKnownStep(registry, matcher, events);
      HandleEventByRecord(registry, matcher, st, events[0]);
      match HandleEvent(registry, matcher, st, events[0])
      case Failure(e) =>
      case Success(next) => RunFailsIffUnknownChannel(registry, matcher, next, events[1..]);
    }
  }

  lemma RunStep(registry: Registry, matcher: Matcher, st: StreamState, events: seq<Event>)
    requires |events| > 0
    ensures Run(registry, matcher, st, events) ==
      match HandleEvent(registry, matcher, st, events[0])
      case Failure(e) => Failure(e)
      case Success(next) => Run(registry, matcher, next, events[1..])
  {
  }

  /** One step of a run in terms of the first event's parse result. */
  lemma RunByRecord(registry: Registry, matcher: Matcher, st: StreamState, events: seq<Event>)
    requires |events| > 0
    ensures Run(registry, matcher, st, events) ==
      match EventRecord(registry, matcher, events[0])
      case Failure(e) => Failure(e)
      case Success(None) => Run(registry, matcher, st, events[1..])
      case Success(Some(rec)) =>
        Run(registry, matcher, StreamState(st.numMessages + 1, st.delivered + [rec]), events[1..])
  {
    HandleEventByRecord(registry, matcher, st, events[0]);
    RunStep(registry, matcher, st, events);
  }

  /** One delivery followed by `recs` is `[rec] + recs` delivered at once;
      kept apart so the sequence algebra stays out of the induction below. */
  lemma DeliverFirst(st: StreamState, rec: Record, recs: seq<Record>)
    ensures StreamState(st.numMessages + 1 + |recs|, st.delivered + [rec] + recs)
         == StreamState(st.numMessages + |[rec] + recs|, st.delivered + ([rec] + recs))
  {
  }

  /** When no parse raises, the counter grows by the number of recognized
      records and the handler receives exactly those records, in arrival order. */
  lemma {:induction false} RunDeliversRecognized(
    registry: Registry, matcher: Matcher, st: StreamState, events: seq<Event>)
    requires Run(registry, matcher, st, events).Success?
    ensures var recs := Recognized(registry, matcher, events);
      Run(registry, matcher, st, events).value ==
        StreamState(st.numMessages + |recs|, st.delivered + recs)
    decreases |events|
  {
    if |events| > 0 {
      var tail := events[1..];
      var recs := Recognized(registry, matcher, tail);
      var er := EventRecord(registry, matcher, events[0]);
      RunByRecord(registry, matcher, st, events);
      if er.Failure? {
        assert false;
      } else if er.value.None? {
        assert Recognized(registry, matcher, events) == recs;
        RunDeliversRecognized(registry, matcher, st, tail);
      } else {
        var rec := er.value.value;
        assert Recognized(registry, matcher, events) == [rec] + recs;
        var next := StreamState(st.numMessages + 1, st.delivered + [rec]);
        RunDeliversRecognized(registry, matcher, next, tail);
        DeliverFirst(st, rec, recs);
      }
    }
  }

  /** A streamer that starts from zero counts exactly the records it delivered. */
  lemma CounterCountsDeliveries(registry: Registry, matcher: Matcher, events: seq<Event>)
    requires AllChannelsKnown(registry, matcher, events)
    ensures Run(registry, matcher, StreamState(0, []), events).Success?
    ensures var final := Run(registry, matcher, StreamState(0, []), events).value;
      final.numMessages == |final.delivered|
      && final.delivered == Recognized(registry, matcher, events)
  {
    RunFailsIffUnknownChannel(registry, matcher, StreamState(0, []), events);
    RunDeliversRecognized(registry, matcher, StreamState(0, []), events);
  }

  /** Processing two batches in turn is processing their concatenation. */
  lemma {:induction false} RunConcat(
    registry: Registry, matcher: Matcher, st: StreamState, a: seq<Event>, b: seq<Event>)
    ensures Run(registry, matcher, st, a + b) ==
      match Run(registry, matcher, st, a)
      case Failure(e) => Failure(e)
      case Success(mid) => Run(registry, matcher, mid, b)
    decreases |a|
  {
    if |a| == 0 {
      assert a + b == b;
    } else {
      assert (a + b)[0] == a[0];
      assert (a + b)[1..] == a[1..] + b;
      match HandleEvent(registry, matcher, st, a[0])
      case Failure(e) =>
      case Success(next) => RunConcat(registry, matcher, next, a[1..], b);
    }
  }
}

=== FILE: wrappers.dfy ===
/** Failure-compatible wrappers used by every parser of the model. */
module Wrappers {

  /** An optional value: `None` plays the part of Python's `None`. */
  datatype Option<+T> = None | Some(value: T)

  /** The outcome of an operation that may raise: `Failure` stands for the exception. */
  datatype Result<+R, +E> = Success(value: R) | Failure(error: E)
}
